=== FILE: README.md ===
# workflow-inference-compiler core, modelled in Dafny

This project models four pure pieces of the workflow-inference-compiler (WIC) and
proves properties about them:

- **The schema sanitiser** `remove_null_types` (`preprocessjson.py`). It walks a JSON
  Schema tree. An object whose `"type"` is exactly `["null"]` becomes `null`. Arrays
  drop the elements that come out as `null`. Everything else is rebuilt in place.
  Modules `JsonTree` and `PreprocessJson`.
- **The tool catalog** `get_tools_cwl` (`src/wic/plugins.py`). It is a fold over the
  registry lines (namespace, directory) of `cwl_dirs.txt`. Every globbed `.cwl` file
  whose path does not contain `biobb_md` anywhere is loaded and, when asked, validated. Its `stdout` and
  `stderr` are forced to `<stem>.out` and `<stem>.err`. It is stored under
  `StepId(stem, namespace)`, and a later file overwrites an earlier one. Modules
  `Registry` and `ToolCatalog`.
- **The workflow catalog** `get_yml_paths` (`src/wic/plugins.py`). For each registry
  line of `yml_dirs.txt`, the globbed `.yml` paths are stable-sorted longest first.
  Paths containing `_inputs` are dropped. The rest become a stem → absolute-path map,
  and that map is merged over the namespace's existing one. Modules `LengthSort` and
  `WorkflowCatalog`.
- **The step-configuration API** (`src/wic/api/pythonapi.py`, `src/wic/api/_types.py`):
  - the CWL tag → Python class table;
  - inputs built from CWL input parameters;
  - type-checked assignment;
  - the `&` (anchor) and `*` (alias) link strings and the two linking transitions;
  - the required-inputs check;
  - the `_yml` and `Workflow.yaml` dictionaries, and `validate_docker`.

  Modules `CwlTypes` and `PythonApi`.

`Results` (Option/Result) and `Strings` (substring test, `rfind`, `PurePath.stem`,
`split(...)[-1]`, `str.replace` on one character, decimal `str()` of an integer) are
shared helpers.

The file system, the YAML loader, `os.path.abspath` and `validate_cwl` are parameters
of the catalog builders. `ToolFiles` holds the `.cwl` glob, the YAML loader,
`os.path.abspath` and `validate_cwl`. `YmlFiles` holds the `.yml` glob and
`os.path.abspath`. Python objects are values: an operation that mutates an
object returns the new object instead.

Two behaviours of the code that are easy to misread:

- **The sanitiser is not idempotent.** The `["null"]` test is made before the object's
  members are sanitised, so a pass can create a new `["null"]` object. The model states
  when a second pass changes nothing (`IdempotentIffOutputClean`) and gives the
  counterexample (`NotIdempotent`).
- **Across registry lines of one namespace, the later line wins** on a stem collision
  (`{**ns_dict, **yml_paths}`), not the shorter path. The shortest path wins only
  within one line (`MergeLaterLineWins`, `LaterLineBeatsShorterPath`).

## Model

| member | source | states |
|---|---|---|
| `Strings.AfterLast` | src/wic/api/pythonapi.py:114 | `s.split(c)[-1]`: the result has no `c`, is a suffix of `s`, and is preceded by `c` whenever it is shorter than `s` |
| `Strings.StemDropsExtension` | src/wic/plugins.py:99 | `PurePath(dir/base.ext).stem` is `base` for a non-empty base and extension |
| `Strings.Stem` | src/wic/plugins.py:99 | defined as: the last `/`-separated component, without the suffix from its last `.` when that dot is neither its first nor its last character |
| `Strings.ReplaceChar` | src/wic/api/pythonapi.py:256 | `s.replace(a, b)` for one-character strings: same length, every `a` becomes `b`, every other character stays |
| `JsonTree.Lookup` | preprocessjson.py:19 | `schema[k]` finds the member with key `k`; absent exactly when `k` is not a key |
| `JsonTree.SetMember` | src/wic/plugins.py:106-107 | `dict.update({k: v})`: afterwards `k` maps to `v`, every other key keeps its value, an existing key keeps its place and a new one is appended |
| `JsonTree.SetMemberKeepsKeysDistinct` | src/wic/plugins.py:106-107 | updating a mapping never duplicates a key |
| `PreprocessJson.DropNulls` | preprocessjson.py:26 | the `is not None` filter: no `null` left, nothing added, never longer, and no change when there was no `null` |
| `PreprocessJson.DropNullsKeepsOrder` | preprocessjson.py:26 | the filter's output is a subsequence of its input holding every non-null element as often as the input does, so exactly the non-null elements in their input order |
| `PreprocessJson.DropNullsAppend` | preprocessjson.py:26 | the filter splits over concatenation |
| `PreprocessJson.IsNullTyped` | preprocessjson.py:19 | defined as: the object has a `"type"` member and its value equals `["null"]` |
| `PreprocessJson.RemoveNullTypes` | preprocessjson.py:15-28 | the result is `null` exactly for `null` and for an object whose `"type"` is `["null"]`; any other object keeps its keys in order; an array stays an array, no longer and with no `null`; scalars are unchanged |
| `PreprocessJson.RemovedMemberStaysAsNull` | preprocessjson.py:23 | a member whose value is removed keeps its key, now with value `null` |
| `PreprocessJson.MembersSanitisedInPlace` | preprocessjson.py:23 | each member keeps its key and position, and its value is sanitised |
| `PreprocessJson.ArraySplits` | preprocessjson.py:26 | on arrays the sanitiser acts element by element: the output for `a + b` is the output for `a` followed by the output for `b` |
| `PreprocessJson.ArraySingleton` | preprocessjson.py:26 | a one-element array keeps its sanitised element unless that element becomes `null` |
| `PreprocessJson.FixpointIffClean` | preprocessjson.py:17-28 | the sanitiser leaves a tree unchanged exactly when no object in it is `["null"]`-typed and no array in it holds `null` |
| `PreprocessJson.IdempotentIffOutputClean` | preprocessjson.py:17-28 | a second pass changes nothing exactly when the first output is clean |
| `PreprocessJson.OutputHasNoNullElements` | preprocessjson.py:24-26 | no array at any depth of the output holds `null` |
| `PreprocessJson.PreservesWellFormed` | preprocessjson.py:23 | objects with distinct keys stay that way |
| `PreprocessJson.AnyOfExample` | preprocessjson.py:19-26 | `{"anyOf":[{"type":["null"]},{"type":"string"}]}` becomes `{"anyOf":[{"type":"string"}]}` |
| `PreprocessJson.ArrayExample` | preprocessjson.py:19-26 | `[{"type":["null"]},5]` becomes `[5]` |
| `PreprocessJson.RemovedValueKeepsKeyExample` | preprocessjson.py:23 | `{"default":{"type":["null"]}}` becomes `{"default":null}` |
| `PreprocessJson.NearMissesAreKept` | preprocessjson.py:19 | `"type": "null"`, `"type": ["null","string"]` and a missing `"type"` do not remove the object |
| `PreprocessJson.NotIdempotent` | preprocessjson.py:19-26 | `{"type":[{"type":["null"]},"null"]}` becomes `{"type":["null"]}`, which a second pass turns into `null` |
| `LengthSort.InsertByLength` | src/wic/plugins.py:139 | insertion keeps the elements as a multiset and keeps longest-first order |
| `LengthSort.SortByLengthDesc` | src/wic/plugins.py:139 | `sorted(key=len, reverse=True)`: a permutation of its input, longest first |
| `LengthSort.InsertOfLength` | src/wic/plugins.py:139 | an inserted element lands in front of every element of its own length |
| `LengthSort.SortIsStable` | src/wic/plugins.py:139 | for every length, the elements of that length keep their input order |
| `Registry.ZeroMatchWarnings` | src/wic/plugins.py:89-91 | a warning names exactly the directories whose raw glob result is empty, before any exclusion, and never stops the build |
| `Registry.ZeroMatchWarningsSingle` | src/wic/plugins.py:89-91 | one registry line gives one warning naming its directory exactly when its glob result is empty, and none otherwise |
| `Registry.ZeroMatchWarningsAppend` | src/wic/plugins.py:81-91 | the warnings for `a + b` are those for `a` followed by those for `b`: one per empty-glob line, in registry order, repeats kept |
| `ToolCatalog.WithStreams` | src/wic/plugins.py:105-107 | `stdout` is `<stem>.out` and `stderr` is `<stem>.err`, overriding earlier values; every other key is unchanged |
| `ToolCatalog.LoadTool` | src/wic/plugins.py:97-109 | a failed load is reported before validation, and validation before the non-mapping error, which is `NotAMapping(path)` for a loaded, validated document that is not a mapping; on success the tool carries the absolute path and the loaded document with its stream names set |
| `ToolCatalog.GetToolsCwl` | src/wic/plugins.py:64-112 | defined as: the outer loop over registry lines run on every line's entries, with the zero-match warnings; its properties are stated by `CollectIsFlatFold`, `GetToolsCwlFailsAtFirstRejected`, `CatalogContents` and `KeysComeFromRegistry` |
| `ToolCatalog.LineEntries` | src/wic/plugins.py:85-99 | one entry per globbed file of the line, in glob order, each built from that file and the line's namespace (its key, skip flag and load result are stated by `EntryOrigin`) |
| `ToolCatalog.AddFirstAppend` | src/wic/plugins.py:81-109 | running the insert loop over `a + b` is running it over `a`, then over `b` |
| `ToolCatalog.CollectIsFlatFold` | src/wic/plugins.py:81-111 | the loops over lines and files are one loop over all files in registry-then-glob order, and the warnings are the zero-match ones |
| `ToolCatalog.AddFirstFailsAtFirstRejected` | src/wic/plugins.py:93-109 | the loop fails exactly when some non-skipped file is rejected, and reports the first one |
| `ToolCatalog.AddFirstLastWriteWins` | src/wic/plugins.py:93-109 | a key is present exactly when some non-skipped file writes it, and it holds the tool of the last such file; other keys keep their values |
| `ToolCatalog.EntryOrigin` | src/wic/plugins.py:81-99 | every entry is a globbed file of some registry line, with that file's stem, skip flag and load result |
| `ToolCatalog.GetToolsCwlFailsAtFirstRejected` | src/wic/plugins.py:64-112 | the build fails exactly when a non-`biobb_md` file fails to load as a mapping or to validate, and reports the first in registry-then-glob order |
| `ToolCatalog.CatalogContents` | src/wic/plugins.py:64-112 | on success: the zero-match warnings; one key per (stem, namespace) of a non-skipped file; under it, the last such file's absolute path and document, with `stdout`/`stderr` named after the key's stem |
| `ToolCatalog.KeysComeFromRegistry` | src/wic/plugins.py:78-109 | every key's namespace and stem come from a non-`biobb_md` file globbed for a line of that namespace, so a namespace whose directories match nothing gets no key |
| `WorkflowCatalog.DirPaths` | src/wic/plugins.py:139-150 | defined as: the stem map built over the globbed paths sorted longest first; its properties are stated by `DirPathsKeys` and `DirPathsShortestLatest` |
| `WorkflowCatalog.GetYmlPaths` | src/wic/plugins.py:115-156 | defined as: every line's map merged into its namespace's map in registry order, with the zero-match warnings; its properties are stated by `YmlCatalogKeys` and `YmlCatalogValue` |
| `WorkflowCatalog.StemMapLastWins` | src/wic/plugins.py:145-150 | after the inner loop, a stem is present exactly when some non-`_inputs` path has it, with the absolute path of the last one |
| `WorkflowCatalog.SortedLastIsShortest` | src/wic/plugins.py:139-150 | in a longest-first arrangement, the last element with a property is no longer than any element with it |
| `WorkflowCatalog.SortedLastIsLatest` | src/wic/plugins.py:139-150 | by stability, that element is the last one of its length with the property in input order |
| `WorkflowCatalog.DirPathsKeys` | src/wic/plugins.py:139-150 | one line's map has a stem exactly when some globbed path without `_inputs` has that stem |
| `WorkflowCatalog.DirPathsShortestLatest` | src/wic/plugins.py:139-150 | a stem that some path without `_inputs` has is a key, and its value is the absolute path of a shortest path without `_inputs` that has that stem, and of the last one in glob order among the shortest |
| `WorkflowCatalog.MergeFirst` | src/wic/plugins.py:132-154 | every namespace of the registry becomes a key, even when its directories matched nothing, and no other key appears |
| `WorkflowCatalog.MergeLaterLineWins` | src/wic/plugins.py:153-154 | under a namespace, a stem is present exactly when some line of that namespace provides it, and holds the value from the last such line |
| `WorkflowCatalog.YmlCatalogKeys` | src/wic/plugins.py:115-156 | the catalog's keys are the registry's namespaces; the warnings are the zero-match ones |
| `WorkflowCatalog.YmlCatalogValue` | src/wic/plugins.py:115-156 | every registry namespace is a key; a stem under it is present exactly when some line of that namespace provides it, and comes from the last line of that namespace that provides it, with that directory's shortest path without `_inputs` |
| `WorkflowCatalog.LaterLineBeatsShorterPath` | src/wic/plugins.py:153-154 | a later line's longer path replaces an earlier line's shorter one |
| `CwlTypes.EnumOf` | src/wic/api/_types.py:6-15 | `CWLTypesEnum(tag)` finds the member whose value is `tag`, or nothing when no member has it |
| `CwlTypes.LookupType` | src/wic/api/_types.py:18-28 | the table lookup fails exactly for a tag that is not an enum value |
| `CwlTypes.EnumValuesAreTableKeys` | src/wic/api/_types.py:6-28 | the enum's values are exactly the table's keys, and distinct members have distinct values |
| `CwlTypes.AliasedTags` | src/wic/api/_types.py:21-27 | `int`/`long`, `float`/`double` and `File`/`Directory` map to the same class |
| `CwlTypes.NullHasNoType` | src/wic/api/_types.py:19 | `"null"` is the one tag that maps to `None` |
| `PythonApi.IsInstance` | src/wic/api/pythonapi.py:129 | defined as: `isinstance(v, t)` for the table's classes, where a `bool` is also an `int` |
| `PythonApi.IsLink` | src/wic/api/pythonapi.py:160-164 | defined as: `s.startswith("&") or s.startswith("*")` |
| `PythonApi.IsLinkFirstChar` | src/wic/api/pythonapi.py:160-164 | `_is_link(s)` holds exactly when `s` starts with `&` or `*` |
| `PythonApi.NameFromId` | src/wic/api/pythonapi.py:110-114 | the name has no `#`, and is the whole id when the id has none |
| `PythonApi.NameFromIdAfterHash` | src/wic/api/pythonapi.py:110-114 | the name of `uri#name` is `name` |
| `PythonApi.SetInpType` | src/wic/api/pythonapi.py:116-122 | a list type takes element 1, an `IndexError` when the list has fewer than two elements; an unknown tag or a nested type is a `KeyError` |
| `PythonApi.FromParameter` | src/wic/api/pythonapi.py:97-122 | the type validator's error is the constructor's; the input is optional exactly when its type is a list containing `"null"`; it starts with no value and unlinked |
| `PythonApi.NullSecondMeansNoType` | src/wic/api/pythonapi.py:104-136 | for a type written `[T, "null"]` the input has no class, and every checked assignment to it raises `TypeError` |
| `PythonApi.NullFirstTakesSecond` | src/wic/api/pythonapi.py:104-122 | for `["null", T]`, the input is optional and takes `T`'s class |
| `PythonApi.SetValue` | src/wic/api/pythonapi.py:124-139 | a checked assignment raises `TypeError` exactly when the value is not an instance of the input's class (`bool` counts as `int`) and never marks the input linked; an unchecked one stores the value and marks it linked only when asked |
| `PythonApi.Target` | src/wic/api/pythonapi.py:228-231 | an assignment targets an input exactly when the name is not reserved and names an input, and then the first input of that name |
| `PythonApi.AssignValue` | src/wic/api/pythonapi.py:227-265 | a string assigned to `cwl_name` renames the step; on an input, a link-shaped string is stored unchecked and does not mark the input linked, and any other value fails with `TypeError` exactly when its runtime type is wrong; only the target input changes |
| `PythonApi.RenameChangesYmlKey` | src/wic/api/pythonapi.py:228-229 | assigning a string to `cwl_name` renames the step's `_yml` entry to that string |
| `PythonApi.LinkInput` | src/wic/api/pythonapi.py:232-259 | unequal types fail before any change; an unlinked source becomes `&name+step` and the local input `*name+step`, both linked; a linked source is left alone and the local input takes its value with `&` turned into `*`, or fails with the `TypeError` of `Path.replace` when that value is a path and with `AttributeError` when it is `None`, a bool, an int or a float |
| `PythonApi.FirstLinkWritesLinks` | src/wic/api/pythonapi.py:241-243 | a first link writes an anchor and an alias that `_is_link` accepts and that differ only in their first character |
| `PythonApi.AnchorBecomesAlias` | src/wic/api/pythonapi.py:254-256 | replacing `&` by `*` in `&t` gives `*t` when `t` has no `&` |
| `PythonApi.ReplaceKeepsLink` | src/wic/api/pythonapi.py:254-256 | replacing `&` by `*` in a link string gives a link string that starts with `*` |
| `PythonApi.LinkTwiceSharesAnchor` | src/wic/api/pythonapi.py:232-259 | linking two steps' inputs to one source gives both local inputs the same alias, and the second link leaves the source unchanged |
| `PythonApi.FromParameterWellTyped` | src/wic/api/pythonapi.py:97-108 | a new input holds no value, so it holds what its type allows |
| `PythonApi.AssignKeepsWellTyped` | src/wic/api/pythonapi.py:124-139 | after a successful assignment every input still holds nothing, a link string, or an instance of its class |
| `PythonApi.LinkKeepsWellTyped` | src/wic/api/pythonapi.py:232-259 | after a successful link every input of the step, and the source input, still holds nothing, a link string, or an instance of its class |
| `PythonApi.Validate` | src/wic/api/pythonapi.py:281-284 | `MissingRequiredValueError` is raised exactly when some required input has no value, and names the first one |
| `PythonApi.ValueStr` | src/wic/api/pythonapi.py:167-175 | a bool stays a bool; every other value becomes text (a string or path as itself) |
| `PythonApi.InMembersContents` | src/wic/api/pythonapi.py:288-295 | the `"in"` dictionary has an input's name exactly when an input of that name has a value, and holds `_value_str` of the last such value |
| `PythonApi.Yml` | src/wic/api/pythonapi.py:286-297 | `_yml` is `{cwl_name: {"in": ...}}` with one key at each level |
| `PythonApi.YmlInputs` | src/wic/api/pythonapi.py:286-297 | the keys under `"in"` are exactly the names of inputs that have a value, each with the last such value's `_value_str` |
| `PythonApi.AddStep` | src/wic/api/pythonapi.py:341-343 | `Workflow.step` appends the step and changes nothing else |
| `PythonApi.WorkflowYaml` | src/wic/api/pythonapi.py:345-349 | `Workflow.yaml` is `{"steps": [...]}` with one `_yml` per step, in step order |
| `PythonApi.AddStepAppendsYml` | src/wic/api/pythonapi.py:341-349 | appending a step appends its `_yml` after the earlier steps' entries |
| `PythonApi.ValidateDocker` | src/wic/api/pythonapi.py:79-85 | no docker requirement raises `InvalidCLTError`; otherwise the result is the first requirement's `dockerPull` |

## Left out

- File and YAML I/O: `glob.glob`, `mkdir`, `open`, `yaml.safe_load`, `os.path.abspath`, `utils.read_lines_pairs` and `utils.copy_config_files` are opaque functions or input sequences. `utils` is not part of this model.
- `validate_cwl` (cwltool) is an opaque predicate on the path. Its `skip_schemas` argument has no effect inside it, so the model omits it.
- The logging filters at the top of `plugins.py` are process-wide logger state, not catalog logic.
- Warnings printed before a fatal error: `GetToolsCwl` returns only the error, so the warnings already printed are not part of a failed result.
- `LoadTool`: a loaded document that is not a mapping fails with `NotAMapping`. In Python that is the `AttributeError` of `.update` on a list, string or `None`, so the model does not distinguish these cases.
- `PythonApi.SetInpType`: a nested type at index 1 is reported as `KeyErr`. Python raises `KeyError` or `TypeError` depending on whether the schema object is hashable. Pydantic's wrapping of validator errors is not modelled.
- Pydantic, typeguard and cwl_utils machinery are foreign calls: `load_document_by_uri`, docker-requirement detection, and `Step.__init__`'s file reads.
- Side-effecting Step and Workflow methods: `_set_from_io_cfg`, `_get_value_from_cfg`, `_save_cwl`, `_save_yaml`, `compile` (subprocess) and `run` (`os.system`).
- `Workflow.__post_init__` is never invoked, because the class defines its own `__init__`. Constructing a workflow therefore validates nothing, and the model claims nothing about it. The constructor's runtime type checks of its arguments are Python's own dynamic typing, and Dafny's types replace them.
- Object identity: linking an input to an input of the same step, or to itself, shares one Python object. The model returns the updated source separately and does not write it back into the step.
- `__getattribute__` (reading `step.<name>`) returns the first input of that name for any name in `_input_names` except `_input_names` itself, step attributes included. For an ordinary input name, that is the input itself, so `LinkInput` takes the source input as a value.
- PythonApi.Step: an input named after a step attribute shadows that attribute, and this is not modelled. With an input named `inputs`, every read of `self.inputs` recurses without end, so `_validate`, `_yml`, assignments and links raise `RecursionError`. With an input named `cwl_name`, `self.cwl_name` is that input object: a link name embeds its `str()` text, and `_yml`, with it `Workflow.yaml`, raises `TypeError` because a mutable pydantic model is unhashable and cannot be a dict key. An input named `_yml` or `_validate` likewise replaces the property or method that `Workflow.yaml` or the required-inputs check reads, and one named `yaml` or `cfg_yaml` replaces those attributes. The model assumes no input is named `inputs`, `cwl_name`, `_yml`, `_validate`, `yaml` or `cfg_yaml`, and reads the step's own fields.
- `PythonApi.ValueStr`: floats are modelled by their `str()` text, and a path by its string. `PurePath`'s normalisation of separators is not modelled.
- `Strings.Stem` follows `PurePath.stem` on the last `/`-separated component. It does not model Windows separators or the normalisation of repeated or trailing slashes.
- The argparse and JSON read/write code at module level in `preprocessjson.py`.
- JSON numbers are integers (`JsonTree.Json.Num`): fractional numbers are not modelled, because the sanitiser never inspects or changes a number.
- PythonApi.AssignValue: assigning a non-string to `cwl_name`, or any value to `inputs` or `_input_names`, replaces that attribute in Python; the model leaves the step unchanged, because the new attribute would no longer be a step name or a list of inputs. The other reserved names, `yaml` and `cfg_yaml`, are not part of the modelled step.
- PythonApi.LinkInput: assigning an input object to a reserved name (`cwl_name`, `inputs`, `_input_names`) replaces that attribute in Python; the model leaves the step unchanged for the same reason.

=== FILE: cwl_types.dfy ===
/** The CWL type tags the Python API knows (`CWLTypesEnum`) and the table from a
    tag to the Python runtime type an input value must have (`CWL_TYPES_DICT`). */
module CwlTypes {
  import opened Results

  /** The Python classes the table names. `bool` is a subclass of `int`. */
  datatype PyType = PyBool | PyInt | PyFloat | PyStr | PyPath

  /** The table's values: a class, or the Python value `None` for "null". */
  type TypeEntry = Option<PyType>

  /** `CWLTypesEnum`, one constructor per member. */
  datatype CwlTypesEnum = Null | Boolean | Int | Long | Float | Double | String | File | Directory

  /** The string value of each member. */
  function TagOf(t: CwlTypesEnum): string {
    match t
    case Null => "null"
    case Boolean => "boolean"
    case Int => "int"
    case Long => "long"
    case Float => "float"
    case Double => "double"
    case String => "string"
    case File => "File"
    case Directory => "Directory"
  }

  /** `CWL_TYPES_DICT`. */
  const CwlTypesDict: map<string, TypeEntry> := map[
    "null" := None,
    "boolean" := Some(PyBool),
    "int" := Some(PyInt),
    "long" := Some(PyInt),
    "float" := Some(PyFloat),
    "double" := Some(PyFloat),
    "string" := Some(PyStr),
    "File" := Some(PyPath),
    "Directory" := Some(PyPath)
  ]

  /** The enum member with a given string value, the way `CWLTypesEnum(tag)` finds it. */
  function EnumOf(tag: string): (r: Option<CwlTypesEnum>)
    ensures r.Some? ==> TagOf(r.value) == tag
    ensures r.None? ==> forall t: CwlTypesEnum :: TagOf(t) != tag
  {
    if tag == "null" then Some(Null)
    else if tag == "boolean" then Some(Boolean)
    else if tag == "int" then Some(Int)
    else if tag == "long" then Some(Long)
    else if tag == "float" then Some(Float)
    else if tag == "double" then Some(Double)
    else if tag == "string" then Some(String)
    else if tag == "File" then Some(File)
    else if tag == "Directory" then Some(Directory)
    else None
  }

  /** `CWL_TYPES_DICT[tag]`, which raises `KeyError` for a tag the table lacks. */
  function LookupType(tag: string): (r: Result<TypeEntry, string>)
    ensures r.Failure? <==> EnumOf(tag).None?
    ensures r.Failure? ==> r.error == tag
  {
    if tag in CwlTypesDict then Success(CwlTypesDict[tag]) else Failure(tag)
  }

  /** The enum's nine values are exactly the table's nine keys, and no two members
      share a value. */
  lemma EnumValuesAreTableKeys()
    ensures forall t: CwlTypesEnum :: TagOf(t) in CwlTypesDict
    ensures forall tag :: tag in CwlTypesDict <==> EnumOf(tag).Some?
    ensures forall t: CwlTypesEnum :: EnumOf(TagOf(t)) == Some(t)
  {
  }

  /** Tags that share a runtime type: a link between them passes the type check. */
  lemma AliasedTags()
    ensures LookupType("int") == LookupType("long") == Success(Some(PyInt))
    ensures LookupType("float") == LookupType("double") == Success(Some(PyFloat))
    ensures LookupType("File") == LookupType("Directory") == Success(Some(PyPath))
  {
  }

  /** "null" maps to no class at all, and it is the only tag that does. */
  lemma NullHasNoType(tag: string)
    ensures LookupType(tag) == Success(None) <==> tag == "null"
  {
  }
}

=== FILE: json_tree.dfy ===
/** JSON values (RFC 8259) as an immutable tree. An object is its sequence of
    members in insertion order, which is how a Python `dict` keeps them. */
module JsonTree {
  import opened Results

  /** Numbers are integers here; fractional numbers are not modelled. */
  datatype Json =
    | Null
    | Bool(b: bool)
    | Num(n: int)
    | Str(s: string)
    | Arr(items: seq<Json>)
    | Obj(members: seq<Member>)

  datatype Member = Member(key: string, val: Json)

  /** The keys of an object, in order. */
  function Keys(ms: seq<Member>): (ks: seq<string>)
    ensures |ks| == |ms|
    ensures forall i :: 0 <= i < |ms| ==> ks[i] == ms[i].key
  {
    seq(|ms|, i requires 0 <= i < |ms| => ms[i].key)
  }

  /** No key occurs twice, as in every Python `dict`. */
  ghost predicate DistinctKeys(ms: seq<Member>) {
    forall i, j :: 0 <= i < j < |ms| ==> ms[i].key != ms[j].key
  }

  /** Every object in the tree has distinct keys. */
  ghost predicate WellFormed(j: Json) {
    match j
    case Arr(xs) => forall i :: 0 <= i < |xs| ==> WellFormed(xs[i])
    case Obj(ms) => DistinctKeys(ms) && forall i :: 0 <= i < |ms| ==> WellFormed(ms[i].val)
    case _ => true
  }

  /** `d[k]` when `k in d`: the value of the first member with key `k`. */
  function Lookup(ms: seq<Member>, k: string): (r: Option<Json>)
    ensures r.None? <==> k !in Keys(ms)
    ensures r.Some? ==> exists i :: 0 <= i < |ms| && ms[i] == Member(k, r.value)
  {
    if |ms| == 0 then None
    else if ms[0].key == k then Some(ms[0].val)
    else
      var r := Lookup(ms[1..], k);
      assert Keys(ms) == [ms[0].key] + Keys(ms[1..]);
      assert r.Some? ==> exists i :: 0 <= i < |ms[1..]| && ms[1..][i] == Member(k, r.value);
      r
  }

  /** Looking a key up in `[m] + rest` inspects `m` first. */
  lemma LookupCons(m: Member, rest: seq<Member>, k: string)
    ensures Lookup([m] + rest, k) == if m.key == k then Some(m.val) else Lookup(rest, k)
    ensures Keys([m] + rest) == [m.key] + Keys(rest)
  {
    assert ([m] + rest)[1..] == rest;
  }

  /** `d.update({k: v})`: an existing key keeps its place and takes the new value;
      a new key is appended at the end. */
  function SetMember(ms: seq<Member>, k: string, v: Json): (r: seq<Member>)
    ensures Lookup(r, k) == Some(v)
    ensures forall k' :: k' != k ==> Lookup(r, k') == Lookup(ms, k')
    ensures k in Keys(ms) ==> Keys(r) == Keys(ms)
    ensures k !in Keys(ms) ==> Keys(r) == Keys(ms) + [k]
  {
    if |ms| == 0 then [Member(k, v)]
    else if ms[0].key == k then
      SetMemberHere(ms, k, v);
      [Member(k, v)] + ms[1..]
    else
      var rest := SetMember(ms[1..], k, v);
      SetMemberLater(ms, rest, k, v);
      [ms[0]] + rest
  }

  /** `SetMember`'s contract when the first member already has the key. */
  lemma SetMemberHere(ms: seq<Member>, k: string, v: Json)
    requires |ms| > 0 && ms[0].key == k
    ensures Lookup([Member(k, v)] + ms[1..], k) == Some(v)
    ensures forall k' :: k' != k ==> Lookup([Member(k, v)] + ms[1..], k') == Lookup(ms, k')
    ensures Keys([Member(k, v)] + ms[1..]) == Keys(ms)
  {
    assert ms == [ms[0]] + ms[1..];
    LookupCons(Member(k, v), ms[1..], k);
    LookupCons(ms[0], ms[1..], k);
    forall k' | k' != k
      ensures Lookup([Member(k, v)] + ms[1..], k') == Lookup(ms, k')
    {
      LookupCons(ms[0], ms[1..], k');
      LookupCons(Member(k, v), ms[1..], k');
    }
  }

  /** `SetMember`'s contract when the first member has another key, given the
      contract for the update of the tail. */
  lemma SetMemberLater(ms: seq<Member>, rest: seq<Member>, k: string, v: Json)
    requires |ms| > 0 && ms[0].key != k
    requires Lookup(rest, k) == Some(v)
    requires forall k' :: k' != k ==> Lookup(rest, k') == Lookup(ms[1..], k')
    requires k in Keys(ms[1..]) ==> Keys(rest) == Keys(ms[1..])
    requires k !in Keys(ms[1..]) ==> Keys(rest) == Keys(ms[1..]) + [k]
    ensures Lookup([ms[0]] + rest, k) == Some(v)
    ensures forall k' :: k' != k ==> Lookup([ms[0]] + rest, k') == Lookup(ms, k')
    ensures k in Keys(ms) ==> Keys([ms[0]] + rest) == Keys(ms)
    ensures k !in Keys(ms) ==> Keys([ms[0]] + rest) == Keys(ms) + [k]
  {
    assert ms == [ms[0]] + ms[1..];
    LookupCons(ms[0], rest, k);
    LookupCons(ms[0], ms[1..], k);
    if k !in Keys(ms) {
      KeysConsAppend(ms[0], rest, ms[1..], k);
    }
    forall k' | k' != k
      ensures Lookup([ms[0]] + rest, k') == Lookup(ms, k')
    {
      LookupCons(ms[0], rest, k');
      LookupCons(ms[0], ms[1..], k');
    }
  }

  /** Putting one member in front of two key lists that differ by a trailing key
      keeps them differing by that key. */
  lemma KeysConsAppend(m: Member, rest: seq<Member>, tail: seq<Member>, k: string)
    requires Keys(rest) == Keys(tail) + [k]
    ensures Keys([m] + rest) == Keys([m] + tail) + [k]
  {
    var a, b := Keys([m] + rest), Keys([m] + tail) + [k];
    assert |a| == |b|;
    forall i | 0 <= i < |a|
      ensures a[i] == b[i]
    {
      if i > 0 {
        assert a[i] == rest[i - 1].key == Keys(rest)[i - 1];
      }
    }
  }

  /** Updating a key keeps keys distinct. */
  lemma SetMemberKeepsKeysDistinct(ms: seq<Member>, k: string, v: Json)
    requires DistinctKeys(ms)
    ensures DistinctKeys(SetMember(ms, k, v))
  {
    var r := SetMember(ms, k, v);
    forall i, j | 0 <= i < j < |r|
      ensures r[i].key != r[j].key
    {
      assert Keys(r)[i] == r[i].key && Keys(r)[j] == r[j].key;
      if k in Keys(ms) {
        assert Keys(ms)[i] == ms[i].key && Keys(ms)[j] == ms[j].key;
      } else if j < |ms| {
        assert Keys(ms)[i] == ms[i].key && Keys(ms)[j] == ms[j].key;
      } else {
        assert Keys(ms)[i] == ms[i].key;
      }
    }
  }
}

=== FILE: length_sort.dfy ===
/** `sorted(paths, key=len, reverse=True)`: a stable sort of strings by length,
    longest first. Python keeps equal-length elements in their original order
    even with `reverse=True`. */
module LengthSort {

  /** Longest first. */
  ghost predicate SortedByLengthDesc(xs: seq<string>) {
    forall i, j :: 0 <= i < j < |xs| ==> |xs[i]| >= |xs[j]|
  }

  /** The elements of `xs` of length `n`, in order. */
  function OfLength(xs: seq<string>, n: nat): seq<string> {
    if |xs| == 0 then []
    else (if |xs[0]| == n then [xs[0]] else []) + OfLength(xs[1..], n)
  }

  /** Places `x` after every strictly longer element of `ys` and before the rest. */
  function InsertByLength(x: string, ys: seq<string>): (r: seq<string>)
    ensures multiset(r) == multiset(ys) + multiset{x}
    ensures SortedByLengthDesc(ys) ==> SortedByLengthDesc(r)
  {
    if |ys| == 0 then [x]
    else if |ys[0]| > |x| then
      var rest := InsertByLength(x, ys[1..]);
      InsertStep(x, ys, rest);
      [ys[0]] + rest
    else
      [x] + ys
  }

  /** The inductive step of `InsertByLength` when `ys[0]` is longer than `x`. */
  lemma InsertStep(x: string, ys: seq<string>, rest: seq<string>)
    requires |ys| > 0 && |ys[0]| > |x|
    requires multiset(rest) == multiset(ys[1..]) + multiset{x}
    requires SortedByLengthDesc(ys[1..]) ==> SortedByLengthDesc(rest)
    ensures multiset([ys[0]] + rest) == multiset(ys) + multiset{x}
    ensures SortedByLengthDesc(ys) ==> SortedByLengthDesc([ys[0]] + rest)
  {
    assert ys == [ys[0]] + ys[1..];
    if SortedByLengthDesc(ys) {
      var r := [ys[0]] + rest;
      forall i, j | 0 <= i < j < |r|
        ensures |r[i]| >= |r[j]|
      {
        if i == 0 {
          assert r[j] == rest[j - 1];
          assert rest[j - 1] in multiset(rest);
          assert r[j] == x || r[j] in ys[1..];
        } else {
          assert r[i] == rest[i - 1] && r[j] == rest[j - 1];
        }
      }
    }
  }

  /** The sort, by insertion from the back, so that an earlier element lands in
      front of later elements of the same length. */
  function SortByLengthDesc(xs: seq<string>): (r: seq<string>)
    ensures multiset(r) == multiset(xs)
    ensures SortedByLengthDesc(r)
  {
    if |xs| == 0 then []
    else
      assert xs == [xs[0]] + xs[1..];
      InsertByLength(xs[0], SortByLengthDesc(xs[1..]))
  }

  /** `OfLength` looks at the first element, then the rest. */
  lemma OfLengthCons(y: string, rest: seq<string>, n: nat)
    ensures OfLength([y] + rest, n) == (if |y| == n then [y] else []) + OfLength(rest, n)
  {
    assert ([y] + rest)[1..] == rest;
  }

  /** Inserting `x` puts it in front of every element of its own length. */
  lemma {:induction false} InsertOfLength(x: string, ys: seq<string>, n: nat)
    ensures OfLength(InsertByLength(x, ys), n)
         == (if |x| == n then [x] else []) + OfLength(ys, n)
  {
    if |ys| == 0 {
      OfLengthCons(x, [], n);
    } else if |ys[0]| > |x| {
      var rest := InsertByLength(x, ys[1..]);
      OfLengthCons(ys[0], rest, n);
      OfLengthCons(ys[0], ys[1..], n);
      assert ys == [ys[0]] + ys[1..];
      InsertOfLength(x, ys[1..], n);
    } else {
      OfLengthCons(x, ys, n);
    }
  }

  /** Stability: for every length, the elements of that length keep their order. */
  lemma {:induction false} SortIsStable(xs: seq<string>, n: nat)
    ensures OfLength(SortByLengthDesc(xs), n) == OfLength(xs, n)
  {
    if |xs| > 0 {
      SortIsStable(xs[1..], n);
      InsertOfLength(xs[0], SortByLengthDesc(xs[1..]), n);
    }
  }
}

=== FILE: preprocess_json.dfy ===
/** The schema sanitiser `remove_null_types`: removes every object whose `"type"`
    (the `type` keyword of section 6.1.1 of JSON Schema Validation, draft 2020-12)
    is exactly the one-element array `["null"]`. Python's `None` result is the
    JSON value `Null` here. */
module PreprocessJson {
  import opened Results
  import opened JsonTree

  /** The `"type"` value that marks an object for removal. */
  const NullOnly: Json := Arr([Str("null")])

  /** `"type" in schema and schema["type"] == ["null"]`. */
  predicate IsNullTyped(ms: seq<Member>) {
    Lookup(ms, "type") == Some(NullOnly)
  }

  /** `xs` can be obtained from `ys` by deleting elements: the elements of `xs`
      occur in `ys` in the same order. */
  ghost predicate SubsequenceOf(xs: seq<Json>, ys: seq<Json>)
    decreases |ys|
  {
    || |xs| == 0
    || (|ys| > 0 && xs[0] == ys[0] && SubsequenceOf(xs[1..], ys[1..]))
    || (|ys| > 0 && SubsequenceOf(xs, ys[1..]))
  }

  /** The list comprehension's `if ... is not None` filter. */
  function DropNulls(xs: seq<Json>): (r: seq<Json>)
    ensures Null !in r
    ensures |r| <= |xs|
    ensures forall x :: x in r ==> x in xs
    ensures Null !in xs ==> r == xs
    ensures |r| == |xs| ==> r == xs
  {
    if |xs| == 0 then []
    else if xs[0] == Null then DropNulls(xs[1..])
    else [xs[0]] + DropNulls(xs[1..])
  }

  /** The filter keeps exactly the non-null elements, each as often as in `xs`,
      in their order in `xs`. */
  lemma {:induction false} DropNullsKeepsOrder(xs: seq<Json>)
    ensures SubsequenceOf(DropNulls(xs), xs)
    ensures multiset(DropNulls(xs)) == multiset(xs)[Null := 0]
  {
    if |xs| > 0 {
      DropNullsKeepsOrder(xs[1..]);
      assert xs == [xs[0]] + xs[1..];
      assert multiset(xs) == multiset{xs[0]} + multiset(xs[1..]);
      if xs[0] != Null {
        assert ([xs[0]] + DropNulls(xs[1..]))[1..] == DropNulls(xs[1..]);
      }
    }
  }

  /** `DropNulls` splits over concatenation. */
  lemma {:induction false} DropNullsAppend(a: seq<Json>, b: seq<Json>)
    ensures DropNulls(a + b) == DropNulls(a) + DropNulls(b)
  {
    if |a| == 0 {
      assert a + b == b;
    } else {
      assert (a + b)[1..] == a[1..] + b;
      DropNullsAppend(a[1..], b);
    }
  }

  /** `remove_null_types(schema)`. The `["null"]` test is made on the object as
      it is, before any of its members are sanitised. */
  function RemoveNullTypes(j: Json): (r: Json)
    ensures r == Null <==> j == Null || (j.Obj? && IsNullTyped(j.members))
    ensures j.Obj? && !IsNullTyped(j.members) ==> r.Obj? && Keys(r.members) == Keys(j.members)
    ensures j.Arr? ==> r.Arr? && |r.items| <= |j.items| && Null !in r.items
    ensures !j.Obj? && !j.Arr? ==> r == j
  {
    match j
    case Obj(ms) =>
      if IsNullTyped(ms) then Null
      else Obj(seq(|ms|, i requires 0 <= i < |ms| => Member(ms[i].key, RemoveNullTypes(ms[i].val))))
    case Arr(xs) =>
      Arr(DropNulls(seq(|xs|, i requires 0 <= i < |xs| => RemoveNullTypes(xs[i]))))
    case _ => j
  }

  /** A member whose value is removed keeps its key, now with value `Null`. */
  lemma RemovedMemberStaysAsNull(ms: seq<Member>, i: nat)
    requires !IsNullTyped(ms)
    requires i < |ms| && ms[i].val.Obj? && IsNullTyped(ms[i].val.members)
    ensures RemoveNullTypes(Obj(ms)).members[i] == Member(ms[i].key, Null)
  {
  }

  /** Each member's value is sanitised in place: same key, same position. */
  lemma MembersSanitisedInPlace(ms: seq<Member>, i: nat)
    requires !IsNullTyped(ms) && i < |ms|
    ensures RemoveNullTypes(Obj(ms)).members[i].key == ms[i].key
    ensures RemoveNullTypes(Obj(ms)).members[i].val == RemoveNullTypes(ms[i].val)
  {
  }

  /** On arrays the sanitiser acts element by element: the result for `a + b` is
      the result for `a` followed by the result for `b`. */
  lemma {:induction false} ArraySplits(a: seq<Json>, b: seq<Json>)
    ensures RemoveNullTypes(Arr(a + b)).items
         == RemoveNullTypes(Arr(a)).items + RemoveNullTypes(Arr(b)).items
  {
    var ab := a + b;
    var fa := seq(|a|, i requires 0 <= i < |a| => RemoveNullTypes(a[i]));
    var fb := seq(|b|, i requires 0 <= i < |b| => RemoveNullTypes(b[i]));
    var fab := seq(|ab|, i requires 0 <= i < |ab| => RemoveNullTypes(ab[i]));
    assert fab == fa + fb by {
      forall i | 0 <= i < |ab|
        ensures fab[i] == (fa + fb)[i]
      {
        if i < |a| { assert ab[i] == a[i]; } else { assert ab[i] == b[i - |a|]; }
      }
    }
    DropNullsAppend(fa, fb);
    assert RemoveNullTypes(Arr(ab)).items == DropNulls(fab);
    assert RemoveNullTypes(Arr(a)).items == DropNulls(fa);
    assert RemoveNullTypes(Arr(b)).items == DropNulls(fb);
  }

  /** A one-element array keeps its sanitised element unless that is `Null`. */
  lemma ArraySingleton(x: Json)
    ensures RemoveNullTypes(Arr([x])).items
         == if RemoveNullTypes(x) == Null then [] else [RemoveNullTypes(x)]
  {
  }

  /** A tree on which the sanitiser has nothing left to do: no object is
      `["null"]`-typed and no array holds `Null`. */
  ghost predicate Clean(j: Json) {
    match j
    case Obj(ms) => !IsNullTyped(ms) && forall i :: 0 <= i < |ms| ==> Clean(ms[i].val)
    case Arr(xs) => forall i :: 0 <= i < |xs| ==> xs[i] != Null && Clean(xs[i])
    case _ => true
  }

  /** The sanitiser leaves a tree unchanged exactly when the tree is clean. */
  lemma {:induction false} FixpointIffClean(j: Json)
    ensures RemoveNullTypes(j) == j <==> Clean(j)
  {
    match j
    case Obj(ms) =>
      if !IsNullTyped(ms) {
        var ms' := RemoveNullTypes(j).members;
        forall i | 0 <= i < |ms| {
          FixpointIffClean(ms[i].val);
        }
        if Clean(j) {
          assert ms' == ms;
        }
        if RemoveNullTypes(j) == j {
          forall i | 0 <= i < |ms|
            ensures Clean(ms[i].val)
          {
            assert ms'[i] == ms[i];
          }
        }
      }
    case Arr(xs) =>
      var ys := seq(|xs|, i requires 0 <= i < |xs| => RemoveNullTypes(xs[i]));
      forall i | 0 <= i < |xs| {
        FixpointIffClean(xs[i]);
      }
      if Clean(j) {
        assert Null !in ys;
        assert ys == xs;
      }
      if RemoveNullTypes(j) == j {
        assert |DropNulls(ys)| == |ys|;
        assert DropNulls(ys) == ys;
        forall i | 0 <= i < |xs|
          ensures xs[i] != Null && Clean(xs[i])
        {
          assert ys[i] == xs[i];
          assert ys[i] in DropNulls(ys);
        }
      }
    case _ =>
  }

  /** Running the sanitiser twice gives the same tree as running it once exactly
      when its first output is clean. */
  lemma IdempotentIffOutputClean(j: Json)
    ensures RemoveNullTypes(RemoveNullTypes(j)) == RemoveNullTypes(j) <==> Clean(RemoveNullTypes(j))
  {
    FixpointIffClean(RemoveNullTypes(j));
  }

  /** Every array in the tree is free of `Null`. */
  ghost predicate NoNullElements(j: Json) {
    match j
    case Obj(ms) => forall i :: 0 <= i < |ms| ==> NoNullElements(ms[i].val)
    case Arr(xs) => forall i :: 0 <= i < |xs| ==> xs[i] != Null && NoNullElements(xs[i])
    case _ => true
  }

  /** No array at any depth of the output holds `Null`; so the only way the output
      can fail to be clean is an object whose `"type"` has become `["null"]`. */
  lemma {:induction false} OutputHasNoNullElements(j: Json)
    ensures NoNullElements(RemoveNullTypes(j))
  {
    match j
    case Obj(ms) =>
      if !IsNullTyped(ms) {
        forall i | 0 <= i < |ms| {
          OutputHasNoNullElements(ms[i].val);
        }
      }
    case Arr(xs) =>
      var ys := seq(|xs|, i requires 0 <= i < |xs| => RemoveNullTypes(xs[i]));
      var zs := DropNulls(ys);
      forall k | 0 <= k < |zs|
        ensures zs[k] != Null && NoNullElements(zs[k])
      {
        assert zs[k] in ys;
        var i :| 0 <= i < |ys| && ys[i] == zs[k];
        OutputHasNoNullElements(xs[i]);
      }
    case _ =>
  }

  /** The sanitiser keeps every object's keys distinct. */
  lemma {:induction false} PreservesWellFormed(j: Json)
    requires WellFormed(j)
    ensures WellFormed(RemoveNullTypes(j))
  {
    match j
    case Obj(ms) =>
      if !IsNullTyped(ms) {
        var ms' := RemoveNullTypes(j).members;
        forall i | 0 <= i < |ms| {
          PreservesWellFormed(ms[i].val);
        }
        forall a, b | 0 <= a < b < |ms'|
          ensures ms'[a].key != ms'[b].key
        {
          assert ms'[a].key == ms[a].key && ms'[b].key == ms[b].key;
        }
      }
    case Arr(xs) =>
      var ys := seq(|xs|, i requires 0 <= i < |xs| => RemoveNullTypes(xs[i]));
      var zs := DropNulls(ys);
      forall k | 0 <= k < |zs|
        ensures WellFormed(zs[k])
      {
        assert zs[k] in ys;
        var i :| 0 <= i < |ys| && ys[i] == zs[k];
        PreservesWellFormed(xs[i]);
      }
    case _ =>
  }

  /** `{"anyOf": [{"type": ["null"]}, {"type": "string"}]}` becomes
      `{"anyOf": [{"type": "string"}]}`. */
  lemma AnyOfExample()
    ensures RemoveNullTypes(Obj([Member("anyOf", Arr([
              Obj([Member("type", NullOnly)]),
              Obj([Member("type", Str("string"))])]))]))
         == Obj([Member("anyOf", Arr([Obj([Member("type", Str("string"))])]))])
  {
    var nullBranch := Obj([Member("type", NullOnly)]);
    var stringBranch := Obj([Member("type", Str("string"))]);
    assert RemoveNullTypes(nullBranch) == Null;
    assert RemoveNullTypes(Str("string")) == Str("string");
    assert RemoveNullTypes(stringBranch) == stringBranch;
    ArraySplits([nullBranch], [stringBranch]);
    assert [nullBranch] + [stringBranch] == [nullBranch, stringBranch];
    var outer := [Member("anyOf", Arr([nullBranch, stringBranch]))];
    assert RemoveNullTypes(Arr([nullBranch, stringBranch])) == Arr([stringBranch]);
    assert Lookup(outer, "type") == None;
    MembersSanitisedInPlace(outer, 0);
  }

  /** `[{"type": ["null"]}, 5]` becomes `[5]`. */
  lemma ArrayExample()
    ensures RemoveNullTypes(Arr([Obj([Member("type", NullOnly)]), Num(5)])) == Arr([Num(5)])
  {
    var nullBranch := Obj([Member("type", NullOnly)]);
    assert RemoveNullTypes(nullBranch) == Null;
    ArraySplits([nullBranch], [Num(5)]);
    assert [nullBranch] + [Num(5)] == [nullBranch, Num(5)];
  }

  /** `{"default": {"type": ["null"]}}` keeps its key: it becomes `{"default": null}`. */
  lemma RemovedValueKeepsKeyExample()
    ensures RemoveNullTypes(Obj([Member("default", Obj([Member("type", NullOnly)]))]))
         == Obj([Member("default", Null)])
  {
    RemovedMemberStaysAsNull([Member("default", Obj([Member("type", NullOnly)]))], 0);
  }

  /** Objects that only resemble the removed shape are kept: `"type": "null"`,
      `"type": ["null", "string"]`, or no `"type"` at all. */
  lemma NearMissesAreKept(ms: seq<Member>)
    requires Lookup(ms, "type") in {None, Some(Str("null")), Some(Arr([Str("null"), Str("string")]))}
    ensures RemoveNullTypes(Obj(ms)).Obj?
  {
  }

  /** The sanitiser is not idempotent: `{"type": [{"type": ["null"]}, "null"]}`
      becomes `{"type": ["null"]}`, which a second pass removes. */
  lemma NotIdempotent()
    ensures var x := Obj([Member("type", Arr([Obj([Member("type", NullOnly)]), Str("null")]))]);
            RemoveNullTypes(x) == Obj([Member("type", NullOnly)])
            && RemoveNullTypes(RemoveNullTypes(x)) == Null
  {
    var nullBranch := Obj([Member("type", NullOnly)]);
    var inner := Arr([nullBranch, Str("null")]);
    var x := Obj([Member("type", inner)]);
    assert RemoveNullTypes(inner) == NullOnly by {
      assert RemoveNullTypes(nullBranch) == Null;
      ArraySplits([nullBranch], [Str("null")]);
      assert [nullBranch] + [Str("null")] == [nullBranch, Str("null")];
    }
    assert RemoveNullTypes(x) == nullBranch by {
      assert Lookup(x.members, "type") == Some(inner);
      MembersSanitisedInPlace(x.members, 0);
    }
    assert IsNullTyped(nullBranch.members);
  }
}

=== FILE: python_api.dfy ===
/** The step-configuration core of the Python API: inputs built from CWL input
    parameters, type-checked assignment, the `&`/`*` link syntax and its two linking
    transitions, the required-inputs check, and the YAML-shaped dictionaries a step
    and a workflow produce. Python objects are values here: an operation returns the
    objects it changes. */
module PythonApi {
  import opened Results
  import opened Strings
  import opened JsonTree
  import opened CwlTypes

  /** The runtime values an input can hold. A float keeps only its `str()` text. */
  datatype PyValue =
    | VNone
    | VBool(b: bool)
    | VInt(i: int)
    | VFloat(text: string)
    | VStr(s: string)
    | VPath(p: string)

  /** The `type` of a CWL input parameter: a tag, a list of alternatives, or any other
      schema object (an array or record schema). */
  datatype TypeSpec = Named(name: string) | Union(alts: seq<TypeSpec>) | Schema

  datatype CwlInputParameter = CwlInputParameter(id: string, typ: TypeSpec)

  /** `CLTInput`: `inpType` is the table entry of its tag (`None` for "null"). */
  datatype CltInput = CltInput(inpType: TypeEntry, name: string, value: PyValue, required: bool, linked: bool)

  datatype DockerRequirement = DockerRequirement(dockerPull: string)

  /** The exceptions of this core. */
  datatype ApiError =
    | IndexErr                         // `inp[1]` on a list of fewer than two types
    | KeyErr                           // a tag, or a nested type, that `CWL_TYPES_DICT` lacks
    | TypeErr(name: string)            // assignment of a value of the wrong runtime type
    | InvalidLink(local: string, other: string)  // linking inputs of different types
    | AttributeErr                     // `.replace` on a linked None, bool, int or float
    | PathReplaceErr                   // `Path.replace` (a rename) given two arguments: a `TypeError`
    | MissingRequiredValue(name: string)
    | InvalidClt                       // no docker requirement

  /** `isinstance(v, t)`; `bool` is a subclass of `int`. */
  predicate IsInstance(v: PyValue, t: PyType) {
    match t
    case PyBool => v.VBool?
    case PyInt => v.VInt? || v.VBool?
    case PyFloat => v.VFloat?
    case PyStr => v.VStr?
    case PyPath => v.VPath?
  }

  /** `_is_link`: a value that starts with `&` (an anchor) or `*` (an alias). */
  predicate IsLink(s: string) {
    StartsWith(s, "&") || StartsWith(s, "*")
  }

  lemma IsLinkFirstChar(s: string)
    ensures IsLink(s) <==> |s| > 0 && (s[0] == '&' || s[0] == '*')
  {
    if |s| > 0 {
      assert s[..1] == [s[0]];
    }
  }

  /** `get_name_from_id`: the text after the last `#` of the id. */
  function NameFromId(id: string): (name: string)
    ensures '#' !in name
    ensures '#' !in id ==> name == id
  {
    AfterLast(id, '#')
  }

  lemma NameFromIdAfterHash(uri: string, name: string)
    requires '#' !in name
    ensures NameFromId(uri + "#" + name) == name
  {
    RFindOfSplit(uri, '#', name);
  }

  /** `isinstance(inp_type, list) and "null" in inp_type`. */
  predicate Optional(t: TypeSpec) {
    t.Union? && Named("null") in t.alts
  }

  /** `CWL_TYPES_DICT[tag]` as `set_inp_type` sees it. */
  function TagEntry(tag: string): Result<TypeEntry, ApiError> {
    match LookupType(tag)
    case Success(e) => Success(e)
    case Failure(_) => Failure(KeyErr)
  }

  /** `set_inp_type`: the tag itself, or the element at index 1 of a list, looked up
      in the table. */
  function SetInpType(t: TypeSpec): (r: Result<TypeEntry, ApiError>)
    ensures t.Named? ==> r == (if t.name in CwlTypesDict then Success(CwlTypesDict[t.name]) else Failure(KeyErr))
    ensures t.Union? && |t.alts| < 2 ==> r == Failure(IndexErr)
    ensures t.Union? && |t.alts| >= 2 ==>
      r == (if t.alts[1].Named? && t.alts[1].name in CwlTypesDict
            then Success(CwlTypesDict[t.alts[1].name]) else Failure(KeyErr))
    ensures t.Schema? ==> r == Failure(KeyErr)
  {
    match t
    case Named(tag) => TagEntry(tag)
    case Schema => Failure(KeyErr)
    case Union(alts) =>
      if |alts| < 2 then Failure(IndexErr)
      else if alts[1].Named? then TagEntry(alts[1].name)
      else Failure(KeyErr)
  }

  /** `CLTInput(cwl_inp)`: the type validator runs first and can fail; the input starts
      with no value and unlinked, and is optional exactly when its type lists "null". */
  function FromParameter(p: CwlInputParameter): (r: Result<CltInput, ApiError>)
    ensures r.Success? <==> SetInpType(p.typ).Success?
    ensures r.Failure? ==> r.error == SetInpType(p.typ).error
    ensures r.Success? ==>
      && r.value.inpType == SetInpType(p.typ).value
      && r.value.name == NameFromId(p.id)
      && r.value.value == VNone
      && (r.value.required <==> !Optional(p.typ))
      && !r.value.linked
  {
    match SetInpType(p.typ)
    case Failure(e) => Failure(e)
    case Success(t) => Success(CltInput(t, NameFromId(p.id), VNone, !Optional(p.typ), false))
  }

  /** An optional input written `[T, "null"]` takes its type from index 1, which is
      "null": it gets no type, and every checked assignment to it fails. */
  lemma NullSecondMeansNoType(id: string, tag: string, v: PyValue)
    requires tag in CwlTypesDict
    ensures var r := FromParameter(CwlInputParameter(id, Union([Named(tag), Named("null")])));
      && r.Success? && r.value.inpType.None? && !r.value.required
      && SetValue(r.value, v, true, false) == Failure(TypeErr(r.value.name))
  {
  }

  /** The usual optional form `["null", T]` takes the type of `T`. */
  lemma NullFirstTakesSecond(id: string, tag: string)
    requires tag in CwlTypesDict
    ensures var r := FromParameter(CwlInputParameter(id, Union([Named("null"), Named(tag)])));
      && r.Success? && r.value.inpType == CwlTypesDict[tag] && !r.value.required
  {
  }

  /** `_set_value(v, check, linked)`. A checked assignment fails unless `v` is an
      instance of the input's class (always when the input has none), and never
      touches `linked`; an unchecked one stores `v` and sets `linked` when asked. */
  function SetValue(inp: CltInput, v: PyValue, check: bool, linked: bool): (r: Result<CltInput, ApiError>)
    ensures r.Failure? <==> check && (inp.inpType.None? || !IsInstance(v, inp.inpType.value))
    ensures r.Failure? ==> r.error == TypeErr(inp.name)
    ensures r.Success? ==> r.value == inp.(value := v, linked := inp.linked || (!check && linked))
  {
    if check then
      if inp.inpType.None? || !IsInstance(v, inp.inpType.value) then Failure(TypeErr(inp.name))
      else Success(inp.(value := v))
    else Success(inp.(value := v, linked := inp.linked || linked))
  }

  /** A configured step: its CWL file stem and its inputs in declaration order. */
  datatype Step = Step(cwlName: string, inputs: seq<CltInput>)

  /** Attribute names `__setattr__` hands to the model itself. */
  const ReservedNames: seq<string> := ["inputs", "yaml", "cfg_yaml", "cwl_name", "_input_names"]

  /** `_input_names.index(name)`: the first input with that name, or -1. */
  function IndexOf(inputs: seq<CltInput>, name: string): (i: int)
    ensures -1 <= i < |inputs|
    ensures 0 <= i ==> inputs[i].name == name
    ensures forall j :: 0 <= j < |inputs| && (i < 0 || j < i) ==> inputs[j].name != name
  {
    if |inputs| == 0 then -1
    else if inputs[0].name == name then 0
    else var i := IndexOf(inputs[1..], name); if i < 0 then -1 else i + 1
  }

  /** The input `step.<name> = ...` targets, if the assignment targets one at all. */
  function Target(step: Step, name: string): (i: int)
    ensures -1 <= i < |step.inputs|
    ensures 0 <= i <==> name !in ReservedNames && exists j :: 0 <= j < |step.inputs| && step.inputs[j].name == name
    ensures 0 <= i ==> step.inputs[i].name == name
    ensures 0 <= i ==> forall j :: 0 <= j < i ==> step.inputs[j].name != name
  {
    if name in ReservedNames then -1 else IndexOf(step.inputs, name)
  }

  /** The reserved attribute that names the step in its `_yml` and in link names. */
  const CwlNameAttr: string := "cwl_name"

  /** `step.<name> = v` for a value that is not an input. A string that looks like a
      link is stored unchecked (and does not mark the input linked); anything else is
      type-checked. A string assigned to `cwl_name` renames the step; any other
      reserved or unknown name is an ordinary attribute and leaves the step alone. */
  function AssignValue(step: Step, name: string, v: PyValue): (r: Result<Step, ApiError>)
    ensures name == CwlNameAttr && v.VStr? ==> r == Success(step.(cwlName := v.s))
    ensures Target(step, name) < 0 && !(name == CwlNameAttr && v.VStr?) ==> r == Success(step)
    ensures 0 <= Target(step, name) ==> var i := Target(step, name); var inp := step.inputs[i];
      && (r.Failure? <==> !(v.VStr? && IsLink(v.s))
                          && (inp.inpType.None? || !IsInstance(v, inp.inpType.value)))
      && (r.Failure? ==> r.error == TypeErr(name))
      && (r.Success? ==> r.value == step.(inputs := step.inputs[i := inp.(value := v)]))
  {
    var i := Target(step, name);
    if name == CwlNameAttr && v.VStr? then Success(step.(cwlName := v.s))
    else if i < 0 then Success(step)
    else
      var check := !(v.VStr? && IsLink(v.s));
      match SetValue(step.inputs[i], v, check, false)
      case Failure(e) => Failure(e)
      case Success(inp) => Success(step.(inputs := step.inputs[i := inp]))
  }

  /** The outcome of `step.<name> = other`: the step and the `other` input. */
  datatype Linked = Linked(step: Step, other: CltInput)

  /** `step.<name> = other` for an input `other` of another step. Unequal types fail
      before anything changes. An unlinked `other` becomes the anchor `&` + name +
      step name and the local input its alias `*` + name + step name, both linked. An
      already linked `other` is left alone and the local input takes its value with
      every `&` turned into `*`; when that value is not a string, `.replace` fails. */
  function LinkInput(step: Step, name: string, other: CltInput): (r: Result<Linked, ApiError>)
    ensures Target(step, name) < 0 ==> r == Success(Linked(step, other))
    ensures 0 <= Target(step, name) ==> var i := Target(step, name); var local := step.inputs[i];
      var tmp := name + step.cwlName;
      && (local.inpType != other.inpType ==> r == Failure(InvalidLink(local.name, other.name)))
      && (local.inpType == other.inpType && !other.linked ==>
            r == Success(Linked(
                   step.(inputs := step.inputs[i := local.(value := VStr("*" + tmp), linked := true)]),
                   other.(value := VStr("&" + tmp), linked := true))))
      && (local.inpType == other.inpType && other.linked && other.value.VPath? ==> r == Failure(PathReplaceErr))
      && (local.inpType == other.inpType && other.linked && !other.value.VStr? && !other.value.VPath? ==>
            r == Failure(AttributeErr))
      && (local.inpType == other.inpType && other.linked && other.value.VStr? ==>
            r == Success(Linked(
                   step.(inputs := step.inputs[i := local.(value := VStr(ReplaceChar(other.value.s, '&', '*')),
                                                           linked := true)]),
                   other)))
  {
    var i := Target(step, name);
    if i < 0 then Success(Linked(step, other))
    else
      var local := step.inputs[i];
      if local.inpType != other.inpType then Failure(InvalidLink(local.name, other.name))
      else if !other.linked then
        var tmp := name + step.cwlName;
        var local' := SetValue(local, VStr("*" + tmp), false, true).value;
        var other' := SetValue(other, VStr("&" + tmp), false, true).value;
        Success(Linked(step.(inputs := step.inputs[i := local']), other'))
      else if other.value.VPath? then Failure(PathReplaceErr)
      else if !other.value.VStr? then Failure(AttributeErr)
      else
        var local' := SetValue(local, VStr(ReplaceChar(other.value.s, '&', '*')), false, true).value;
        Success(Linked(step.(inputs := step.inputs[i := local']), other))
  }

  /** Both values a first link writes are link strings that `AssignValue` would store
      unchecked: the source's is an anchor, the local one the matching alias. */
  lemma FirstLinkWritesLinks(step: Step, name: string, other: CltInput)
    requires 0 <= Target(step, name) && !other.linked
    requires step.inputs[Target(step, name)].inpType == other.inpType
    ensures var r := LinkInput(step, name, other).value;
      var a := r.other.value.s;
      var b := r.step.inputs[Target(step, name)].value.s;
      && IsLink(a) && IsLink(b) && a[0] == '&' && b[0] == '*' && a[1..] == b[1..]
  {
    var r := LinkInput(step, name, other).value;
    IsLinkFirstChar(r.other.value.s);
    IsLinkFirstChar(r.step.inputs[Target(step, name)].value.s);
  }

  /** Turning the anchors of a link value into aliases. */
  lemma AnchorBecomesAlias(tmp: string)
    requires '&' !in tmp
    ensures ReplaceChar("&" + tmp, '&', '*') == "*" + tmp
  {
    var r := ReplaceChar("&" + tmp, '&', '*');
    forall k | 0 <= k < |r|
      ensures r[k] == ("*" + tmp)[k]
    {
      if k > 0 {
        assert ("&" + tmp)[k] == tmp[k - 1];
      }
    }
  }

  /** Linking two steps' inputs to the same source input: the first link makes the
      source an anchor, the second reuses it, and both local inputs end up holding
      the same alias (when the link name has no `&` in it). */
  lemma LinkTwiceSharesAnchor(s1: Step, n1: string, s2: Step, n2: string, src: CltInput)
    requires 0 <= Target(s1, n1) && 0 <= Target(s2, n2)
    requires !src.linked
    requires s1.inputs[Target(s1, n1)].inpType == src.inpType == s2.inputs[Target(s2, n2)].inpType
    requires '&' !in n1 + s1.cwlName
    ensures var first := LinkInput(s1, n1, src);
      && first.Success?
      && first.value.other.value == VStr("&" + n1 + s1.cwlName) && first.value.other.linked
      && var second := LinkInput(s2, n2, first.value.other);
         && second.Success?
         && second.value.other == first.value.other
         && second.value.step.inputs[Target(s2, n2)].value
            == first.value.step.inputs[Target(s1, n1)].value
            == VStr("*" + n1 + s1.cwlName)
  {
    var tmp := n1 + s1.cwlName;
    AnchorBecomesAlias(tmp);
    assert "&" + n1 + s1.cwlName == "&" + tmp;
    assert "*" + n1 + s1.cwlName == "*" + tmp;
  }

  /** Renaming a step through `cwl_name` renames its `_yml` entry. */
  lemma RenameChangesYmlKey(step: Step, s: string)
    ensures AssignValue(step, CwlNameAttr, VStr(s)).Success?
    ensures Yml(AssignValue(step, CwlNameAttr, VStr(s)).value).members[0].key == s
  {
  }

  /** What an input may hold between operations: no value, a link string, or an
      instance of its class. */
  predicate WellTyped(inp: CltInput) {
    || inp.value.VNone?
    || (inp.value.VStr? && IsLink(inp.value.s))
    || (inp.inpType.Some? && IsInstance(inp.value, inp.inpType.value))
  }

  /** Every input of the step is well typed. */
  predicate StepWellTyped(step: Step) {
    forall i :: 0 <= i < |step.inputs| ==> WellTyped(step.inputs[i])
  }

  /** Turning anchors into aliases keeps a link a link, now an alias. */
  lemma ReplaceKeepsLink(s: string)
    requires IsLink(s)
    ensures IsLink(ReplaceChar(s, '&', '*')) && ReplaceChar(s, '&', '*')[0] == '*'
  {
    IsLinkFirstChar(s);
    IsLinkFirstChar(ReplaceChar(s, '&', '*'));
  }

  /** A fresh input holds no value, so it is well typed. */
  lemma FromParameterWellTyped(p: CwlInputParameter)
    ensures FromParameter(p).Success? ==> WellTyped(FromParameter(p).value)
  {
  }

  /** A successful `step.<name> = v` keeps every input well typed. */
  lemma AssignKeepsWellTyped(step: Step, name: string, v: PyValue)
    requires StepWellTyped(step)
    ensures AssignValue(step, name, v).Success? ==> StepWellTyped(AssignValue(step, name, v).value)
  {
  }

  /** A successful link keeps every input of the step, and the source input, well
      typed: both link strings are links, and an alias copied from a linked source
      is a link or a string of the source's class, which is the local input's class. */
  lemma LinkKeepsWellTyped(step: Step, name: string, other: CltInput)
    requires StepWellTyped(step) && WellTyped(other)
    ensures var r := LinkInput(step, name, other);
      r.Success? ==> StepWellTyped(r.value.step) && WellTyped(r.value.other)
  {
  }

  /** `_validate`: the first required input without a value, if any. */
  method Validate(step: Step) returns (r: Result<(), ApiError>)
    ensures r.Failure? <==> exists i :: 0 <= i < |step.inputs| && step.inputs[i].required && step.inputs[i].value == VNone
    ensures r.Failure? ==> exists i :: (0 <= i < |step.inputs|
      && step.inputs[i].required && step.inputs[i].value == VNone
      && r.error == MissingRequiredValue(step.inputs[i].name)
      && forall j :: 0 <= j < i ==> !(step.inputs[j].required && step.inputs[j].value == VNone))
  {
    var k := 0;
    while k < |step.inputs|
      invariant 0 <= k <= |step.inputs|
      invariant forall j :: 0 <= j < k ==> !(step.inputs[j].required && step.inputs[j].value == VNone)
    {
      var inp := step.inputs[k];
      if inp.required && inp.value == VNone {
        return Failure(MissingRequiredValue(inp.name));
      }
      k := k + 1;
    }
    return Success(());
  }

  /** `_value_str`: a bool stays a bool; anything else becomes its `str()` text. */
  function ValueStr(v: PyValue): (r: Json)
    ensures r.Bool? <==> v.VBool?
    ensures v.VBool? ==> r == Bool(v.b)
    ensures v.VStr? ==> r == Str(v.s)
    ensures v.VPath? ==> r == Str(v.p)
    ensures r.Bool? || r.Str?
  {
    match v
    case VNone => Str("None")
    case VBool(b) => Bool(b)
    case VInt(i) => Str(IntToDecimal(i))
    case VFloat(text) => Str(text)
    case VStr(s) => Str(s)
    case VPath(p) => Str(p)
  }

  /** The `"in"` dictionary over the first `n` inputs: every input with a value, by
      name; a later input of the same name overwrites the value in place. */
  function InMembersFirst(inputs: seq<CltInput>, n: nat): seq<Member>
    requires n <= |inputs|
  {
    if n == 0 then []
    else
      var ms := InMembersFirst(inputs, n - 1);
      var inp := inputs[n - 1];
      if inp.value == VNone then ms else SetMember(ms, inp.name, ValueStr(inp.value))
  }

  /** The last of the first `n` inputs with name `k` and a value, or -1. */
  function LastValuedBelow(inputs: seq<CltInput>, k: string, n: nat): (i: int)
    requires n <= |inputs|
    ensures -1 <= i < n
    ensures 0 <= i ==> inputs[i].name == k && inputs[i].value != VNone
    ensures forall j :: i < j < n ==> inputs[j].name != k || inputs[j].value == VNone
  {
    if n == 0 then -1
    else if inputs[n - 1].name == k && inputs[n - 1].value != VNone then n - 1
    else LastValuedBelow(inputs, k, n - 1)
  }

  /** Exactly the inputs with a value appear, each under its name with the `_value_str`
      of the last such input's value. */
  lemma {:induction false} InMembersContents(inputs: seq<CltInput>, n: nat, k: string)
    requires n <= |inputs|
    ensures var i := LastValuedBelow(inputs, k, n);
      Lookup(InMembersFirst(inputs, n), k) == if i < 0 then None else Some(ValueStr(inputs[i].value))
  {
    if n > 0 {
      InMembersContents(inputs, n - 1, k);
    }
  }

  /** `_yml`: `{cwl_name: {"in": {...}}}`. */
  function Yml(step: Step): (r: Json)
    ensures r.Obj? && |r.members| == 1 && r.members[0].key == step.cwlName
    ensures var body := r.members[0].val;
      && body.Obj? && |body.members| == 1 && body.members[0].key == "in"
      && body.members[0].val == Obj(InMembersFirst(step.inputs, |step.inputs|))
  {
    Obj([Member(step.cwlName, Obj([Member("in", Obj(InMembersFirst(step.inputs, |step.inputs|)))]))])
  }

  /** What a step's `"in"` dictionary says about input name `k`. */
  lemma YmlInputs(step: Step, k: string)
    ensures var ins := Yml(step).members[0].val.members[0].val.members;
      var i := LastValuedBelow(step.inputs, k, |step.inputs|);
      && (Lookup(ins, k).Some? <==>
            exists j :: 0 <= j < |step.inputs| && step.inputs[j].name == k && step.inputs[j].value != VNone)
      && (0 <= i ==> Lookup(ins, k) == Some(ValueStr(step.inputs[i].value)))
  {
    InMembersContents(step.inputs, |step.inputs|, k);
  }

  /** `Workflow`: the constructor's argument type checks are Python's own; a path
      given as a string is kept as text. */
  datatype Workflow = Workflow(steps: seq<Step>, name: string, path: string)

  /** `Workflow.step`: append. */
  function AddStep(w: Workflow, s: Step): (r: Workflow)
    ensures r.steps == w.steps + [s] && r.name == w.name && r.path == w.path
  {
    w.(steps := w.steps + [s])
  }

  /** `Workflow.yaml`: `{"steps": [step._yml for step in steps]}`. */
  function WorkflowYaml(w: Workflow): (r: Json)
    ensures r.Obj? && |r.members| == 1 && r.members[0].key == "steps"
    ensures r.members[0].val.Arr? && |r.members[0].val.items| == |w.steps|
    ensures forall i :: 0 <= i < |w.steps| ==> r.members[0].val.items[i] == Yml(w.steps[i])
  {
    Obj([Member("steps", Arr(seq(|w.steps|, i requires 0 <= i < |w.steps| => Yml(w.steps[i]))))])
  }

  /** Appending a step appends its `_yml` to the list, after the earlier steps'. */
  lemma AddStepAppendsYml(w: Workflow, s: Step)
    ensures WorkflowYaml(AddStep(w, s)).members[0].val.items
         == WorkflowYaml(w).members[0].val.items + [Yml(s)]
  {
    var a := WorkflowYaml(AddStep(w, s)).members[0].val.items;
    var b := WorkflowYaml(w).members[0].val.items + [Yml(s)];
    assert |a| == |b|;
    forall i | 0 <= i < |a|
      ensures a[i] == b[i]
    {
      assert AddStep(w, s).steps[i] == (w.steps + [s])[i];
    }
  }

  /** `validate_docker`: the first docker requirement's image, or `InvalidCLTError`
      when there is none. */
  function ValidateDocker(docker: seq<DockerRequirement>): (r: Result<string, ApiError>)
    ensures r.Failure? <==> |docker| == 0
    ensures r.Failure? ==> r.error == InvalidClt
    ensures r.Success? ==> r.value == docker[0].dockerPull
  {
    if |docker| == 0 then Failure(InvalidClt) else Success(docker[0].dockerPull)
  }
}

=== FILE: registry.dfy ===
/** The registry files `cwl_dirs.txt` and `yml_dirs.txt`, as `utils.read_lines_pairs`
    returns them: an ordered list of (namespace, directory) pairs, duplicates kept. */
module Registry {

  datatype RegistryLine = RegistryLine(namespace: string, directory: string)

  /** The directories whose raw glob result is empty, in registry order: each gets
      the "No ... files found" warning, which never stops the build. */
  function ZeroMatchWarnings(lines: seq<RegistryLine>, glob: string -> seq<string>): (ws: seq<string>)
    ensures |ws| <= |lines|
    ensures forall d :: d in ws ==> exists i :: 0 <= i < |lines| && lines[i].directory == d && glob(d) == []
    ensures forall i :: 0 <= i < |lines| && glob(lines[i].directory) == [] ==> lines[i].directory in ws
  {
    if |lines| == 0 then []
    else
      var last := lines[|lines| - 1];
      var ws := ZeroMatchWarnings(lines[..|lines| - 1], glob);
      ws + (if glob(last.directory) == [] then [last.directory] else [])
  }

  /** One registry line gives one warning, naming its directory, exactly when its
      glob result is empty. */
  lemma ZeroMatchWarningsSingle(line: RegistryLine, glob: string -> seq<string>)
    ensures ZeroMatchWarnings([line], glob) == if glob(line.directory) == [] then [line.directory] else []
  {
    assert [line][..0] == [];
  }

  /** The warnings of `a + b` are those of `a` followed by those of `b`: one warning
      per empty-glob line, in registry order, duplicates kept. */
  lemma {:induction false} ZeroMatchWarningsAppend(a: seq<RegistryLine>, b: seq<RegistryLine>, glob: string -> seq<string>)
    ensures ZeroMatchWarnings(a + b, glob) == ZeroMatchWarnings(a, glob) + ZeroMatchWarnings(b, glob)
    decreases |b|
  {
    if |b| == 0 {
      assert a + b == a;
    } else {
      var b' := b[..|b| - 1];
      assert (a + b)[..|a + b| - 1] == a + b';
      assert (a + b)[|a + b| - 1] == b[|b| - 1];
      ZeroMatchWarningsAppend(a, b', glob);
    }
  }
}

=== FILE: results.dfy ===
/** The two shapes the model uses for "maybe no value" and "a raised exception". */
module Results {

  /** A value that may be absent (Python's `None`, or a failed lookup). */
  datatype Option<T> = None | Some(value: T)

  /** The outcome of an operation that can raise: its value, or the error it raised. */
  datatype Result<T, E> = Success(value: T) | Failure(error: E)
}

=== FILE: strings.dfy ===
/** The few Python string and path operations the core relies on. */
module Strings {

  /** Python's `sub in s` on strings: `sub` occurs somewhere in `s`. */
  predicate Contains(s: string, sub: string)
    decreases |s|
  {
    StartsWith(s, sub) || (|s| > 0 && Contains(s[1..], sub))
  }

  /** Python's `s.startswith(p)`. */
  predicate StartsWith(s: string, p: string) {
    |p| <= |s| && s[..|p|] == p
  }

  /** The last index below `n` at which `c` occurs in `s`, or -1. */
  function RFindBelow(s: string, c: char, n: nat): (i: int)
    requires n <= |s|
    ensures -1 <= i < n
    ensures 0 <= i ==> s[i] == c
    ensures forall k :: i < k < n ==> s[k] != c
  {
    if n == 0 then -1
    else if s[n - 1] == c then n - 1
    else RFindBelow(s, c, n - 1)
  }

  /** Python's `s.rfind(c)` for one character: the last index of `c` in `s`, or -1. */
  function RFind(s: string, c: char): (i: int)
    ensures -1 <= i < |s|
    ensures 0 <= i ==> s[i] == c
    ensures forall k :: i < k < |s| ==> s[k] != c
  {
    RFindBelow(s, c, |s|)
  }

  /** Python's `s.split(c)[-1]`: the text after the last `c`, or all of `s` when `c` does not occur. */
  function AfterLast(s: string, c: char): (r: string)
    ensures c !in r
    ensures |r| <= |s| && r == s[|s| - |r|..]
    ensures |r| < |s| ==> s[|s| - |r| - 1] == c
  {
    s[RFind(s, c) + 1..]
  }

  /** `PurePath(path).name`: the last component of a slash-separated path. */
  function FileName(path: string): string {
    AfterLast(path, '/')
  }

  /** `PurePath(path).stem`: the file name without its last suffix. A dot that starts
      the name or ends it does not begin a suffix. */
  function Stem(path: string): string {
    var name := FileName(path);
    var i := RFind(name, '.');
    if 0 < i < |name| - 1 then name[..i] else name
  }

  /** A file `base.ext` in any directory has stem `base`, dots inside `base` included. */
  lemma StemDropsExtension(dir: string, base: string, ext: string)
    requires base != [] && '/' !in base
    requires ext != [] && '/' !in ext && '.' !in ext
    ensures Stem(dir + "/" + base + "." + ext) == base
  {
    var tail := base + "." + ext;
    var path := dir + "/" + tail;
    assert path == dir + "/" + base + "." + ext;
    RFindOfSplit(dir, '/', tail);
    assert FileName(path) == tail;
    RFindOfSplit(base, '.', ext);
    assert tail[..|base|] == base;
  }

  /** In `a + [c] + b` with no `c` in `b`, the last `c` is the one after `a`. */
  lemma RFindOfSplit(a: string, c: char, b: string)
    requires c !in b
    ensures RFind(a + [c] + b, c) == |a|
    ensures (a + [c] + b)[|a| + 1..] == b
  {
    var s := a + [c] + b;
    var i := RFind(s, c);
    assert s[|a|] == c;
  }

  /** Python's `s.replace(a, b)` for single characters `a` and `b`. */
  function ReplaceChar(s: string, a: char, b: char): (r: string)
    ensures |r| == |s|
    ensures forall i :: 0 <= i < |s| ==> r[i] == (if s[i] == a then b else s[i])
  {
    if |s| == 0 then []
    else [if s[0] == a then b else s[0]] + ReplaceChar(s[1..], a, b)
  }

  /** One decimal digit. */
  function Digit(d: nat): char
    requires d < 10
  {
    "0123456789"[d]
  }

  /** `str(n)` for a non-negative integer. */
  function NatToDecimal(n: nat): string
    decreases n
  {
    if n < 10 then [Digit(n)] else NatToDecimal(n / 10) + [Digit(n % 10)]
  }

  /** `str(i)` for a Python `int`. */
  function IntToDecimal(i: int): string {
    if i < 0 then "-" + NatToDecimal(-i) else NatToDecimal(i)
  }
}

=== FILE: tool_catalog.dfy ===
/** `get_tools_cwl`: the catalog of CWL CommandLineTool definitions, keyed by
    (file stem, namespace). The file system, the YAML loader, `os.path.abspath`
    and `validate_cwl` are parameters. */
module ToolCatalog {
  import opened Results
  import opened Strings
  import opened JsonTree
  import opened Registry

  /** Paths containing this marker belong to a deprecated package and are skipped. */
  const DeprecatedMarker: string := "biobb_md"

  datatype StepId = StepId(stem: string, pluginNs: string)

  /** A cataloged tool: its absolute path and its loaded document. */
  datatype Tool = Tool(runPath: string, cwl: Json)

  /** The exceptions that end the build. */
  datatype ToolError =
    | LoadFailed(path: string)        // `open` or `yaml.safe_load` raised
    | ValidationFailed(path: string)  // `validate_cwl` raised
    | NotAMapping(path: string)       // the document has no `update` (not a mapping)

  /** What the builder reads the outside world through. */
  datatype ToolFiles = ToolFiles(
    glob: string -> seq<string>,    // the recursive `**/*.cwl` glob of a directory, in glob order
    load: string -> Option<Json>,   // the parsed file, or None when reading or parsing raises
    absPath: string -> string,      // `os.path.abspath`
    validCwl: string -> bool)       // `validate_cwl` returns without raising

  /** One discovered file, with the namespace of its registry line, the catalog key
      it would be stored under, whether the deprecation filter skips it, and what
      loading it gives (consulted only when it is not skipped). */
  datatype Entry = Entry(namespace: string, path: string, key: StepId, deprecated: bool,
                         loaded: Result<Tool, ToolError>)

  /** A finished build: the catalog and the zero-match warnings. */
  datatype ToolsBuilt = ToolsBuilt(tools: map<StepId, Tool>, warnings: seq<string>)

  predicate Deprecated(path: string) {
    Contains(path, DeprecatedMarker)
  }


  /** The two `tool.update` calls: `stdout` and `stderr` are set from the stem,
      overriding earlier values; every other key keeps its value. */
  function WithStreams(ms: seq<Member>, stem: string): (r: seq<Member>)
    ensures Lookup(r, "stdout") == Some(Str(stem + ".out"))
    ensures Lookup(r, "stderr") == Some(Str(stem + ".err"))
    ensures forall k :: k != "stdout" && k != "stderr" ==> Lookup(r, k) == Lookup(ms, k)
  {
    SetMember(SetMember(ms, "stdout", Str(stem + ".out")), "stderr", Str(stem + ".err"))
  }

  /** The body of the inner loop for a path that is not skipped: load, validate when
      asked, set the stream names. Loading comes first, then validation, then the update. */
  function LoadTool(files: ToolFiles, validate: bool, path: string): (r: Result<Tool, ToolError>)
    ensures files.load(path).None? ==> r == Failure(LoadFailed(path))
    ensures files.load(path).Some? && validate && !files.validCwl(path) ==> r == Failure(ValidationFailed(path))
    ensures files.load(path).Some? && !files.load(path).value.Obj? && (validate ==> files.validCwl(path)) ==>
      r == Failure(NotAMapping(path))
    ensures r.Success? <==>
      files.load(path).Some? && files.load(path).value.Obj? && (validate ==> files.validCwl(path))
    ensures r.Success? ==>
      && r.value.runPath == files.absPath(path)
      && r.value.cwl.Obj?
      && Lookup(r.value.cwl.members, "stdout") == Some(Str(Stem(path) + ".out"))
      && Lookup(r.value.cwl.members, "stderr") == Some(Str(Stem(path) + ".err"))
      && forall k :: k != "stdout" && k != "stderr" ==>
           Lookup(r.value.cwl.members, k) == Lookup(files.load(path).value.members, k)
  {
    match files.load(path)
    case None => Failure(LoadFailed(path))
    case Some(doc) =>
      if validate && !files.validCwl(path) then Failure(ValidationFailed(path))
      else if !doc.Obj? then Failure(NotAMapping(path))
      else Success(Tool(files.absPath(path), Obj(WithStreams(doc.members, Stem(path)))))
  }

  /** The entry the loop sees for file `path` of a line with namespace `ns`. */
  function EntryFor(files: ToolFiles, validate: bool, ns: string, path: string): Entry {
    Entry(ns, path, StepId(Stem(path), ns), Deprecated(path), LoadTool(files, validate, path))
  }

  /** One iteration of the inner loop. */
  function AddEntry(cat: map<StepId, Tool>, e: Entry): Result<map<StepId, Tool>, ToolError> {
    if e.deprecated then Success(cat)
    else match e.loaded
      case Failure(err) => Failure(err)
      case Success(t) => Success(cat[e.key := t])
  }

  /** The loop over the first `n` entries, in order, stopping at the first error. */
  function AddFirst(cat: map<StepId, Tool>, es: seq<Entry>, n: nat)
    : Result<map<StepId, Tool>, ToolError>
    requires n <= |es|
  {
    if n == 0 then Success(cat)
    else match AddFirst(cat, es, n - 1)
      case Failure(err) => Failure(err)
      case Success(c) => AddEntry(c, es[n - 1])
  }

  /** The loop over all of `es`. */
  function AddEntries(cat: map<StepId, Tool>, es: seq<Entry>)
    : Result<map<StepId, Tool>, ToolError>
  {
    AddFirst(cat, es, |es|)
  }

  /** The files one registry line contributes, in glob order. */
  function LineEntries(line: RegistryLine, files: ToolFiles, validate: bool): (es: seq<Entry>)
    ensures |es| == |files.glob(line.directory)|
    ensures forall i :: 0 <= i < |es| ==>
      es[i] == EntryFor(files, validate, line.namespace, files.glob(line.directory)[i])
  {
    var ps := files.glob(line.directory);
    seq(|ps|, i requires 0 <= i < |ps| => EntryFor(files, validate, line.namespace, ps[i]))
  }

  /** The glob results of every registry line, as entries. */
  function Discover(lines: seq<RegistryLine>, files: ToolFiles, validate: bool): (found: seq<seq<Entry>>)
    ensures |found| == |lines|
    ensures forall l :: 0 <= l < |lines| ==> found[l] == LineEntries(lines[l], files, validate)
  {
    seq(|lines|, l requires 0 <= l < |lines| => LineEntries(lines[l], files, validate))
  }

  /** The outer loop over registry lines, each with the entries its glob found. */
  function Collect(lines: seq<RegistryLine>, glob: string -> seq<string>, found: seq<seq<Entry>>)
    : Result<ToolsBuilt, ToolError>
    requires |found| == |lines|
  {
    if |lines| == 0 then Success(ToolsBuilt(map[], []))
    else match Collect(lines[..|lines| - 1], glob, found[..|found| - 1])
      case Failure(err) => Failure(err)
      case Success(built) =>
        var line := lines[|lines| - 1];
        var warnings := built.warnings + (if glob(line.directory) == [] then [line.directory] else []);
        match AddEntries(built.tools, found[|found| - 1])
        case Failure(err) => Failure(err)
        case Success(tools) => Success(ToolsBuilt(tools, warnings))
  }

  /** `get_tools_cwl(homedir, validate_plugins)` over the registry lines of `cwl_dirs.txt`. */
  function GetToolsCwl(lines: seq<RegistryLine>, files: ToolFiles, validate: bool)
    : Result<ToolsBuilt, ToolError>
  {
    Collect(lines, files.glob, Discover(lines, files, validate))
  }

  /** The entries of consecutive lines, one after another. */
  function Flatten(found: seq<seq<Entry>>): seq<Entry> {
    if |found| == 0 then [] else Flatten(found[..|found| - 1]) + found[|found| - 1]
  }

  /** All discovered files, in registry-then-glob order. */
  function Entries(lines: seq<RegistryLine>, files: ToolFiles, validate: bool): seq<Entry> {
    Flatten(Discover(lines, files, validate))
  }

  /** A non-skipped entry whose loading, validation or update raises. */
  predicate Rejected(e: Entry) {
    !e.deprecated && e.loaded.Failure?
  }

  /** A non-skipped entry that writes catalog key `k`. */
  predicate Writes(e: Entry, k: StepId) {
    !e.deprecated && e.key == k
  }

  /** The index of the last of the first `n` entries that writes `k`, or -1. */
  function LastWriterBelow(es: seq<Entry>, k: StepId, n: nat): (i: int)
    requires n <= |es|
    ensures -1 <= i < n
    ensures 0 <= i ==> Writes(es[i], k)
    ensures forall j :: i < j < n ==> !Writes(es[j], k)
  {
    if n == 0 then -1
    else if Writes(es[n - 1], k) then n - 1
    else LastWriterBelow(es, k, n - 1)
  }

  /** The loop only reads the first `n` entries. */
  lemma {:induction false} AddFirstReadsPrefix(cat: map<StepId, Tool>, xs: seq<Entry>, ys: seq<Entry>, n: nat)
    requires n <= |xs| && n <= |ys|
    requires forall i :: 0 <= i < n ==> xs[i] == ys[i]
    ensures AddFirst(cat, xs, n) == AddFirst(cat, ys, n)
  {
    if n > 0 {
      AddFirstReadsPrefix(cat, xs, ys, n - 1);
    }
  }

  /** Running the loop over `a + b` is running it over `a`, then over `b`. */
  lemma {:induction false} AddFirstAppend(cat: map<StepId, Tool>, a: seq<Entry>, b: seq<Entry>, m: nat)
    requires m <= |b|
    ensures AddFirst(cat, a + b, |a| + m)
         == match AddEntries(cat, a)
            case Failure(err) => Failure(err)
            case Success(c) => AddFirst(c, b, m)
  {
    if m == 0 {
      AddFirstReadsPrefix(cat, a + b, a, |a|);
    } else {
      AddFirstAppend(cat, a, b, m - 1);
      assert (a + b)[|a| + m - 1] == b[m - 1];
    }
  }

  /** The nested loops over registry lines and their files are one loop over all
      entries in registry-then-glob order; the warnings are the zero-match ones. */
  lemma {:induction false} CollectIsFlatFold(lines: seq<RegistryLine>, glob: string -> seq<string>,
                                             found: seq<seq<Entry>>)
    requires |found| == |lines|
    ensures var flat := AddEntries(map[], Flatten(found));
      var r := Collect(lines, glob, found);
      && (r.Success? <==> flat.Success?)
      && (flat.Success? ==> r.value == ToolsBuilt(flat.value, ZeroMatchWarnings(lines, glob)))
      && (flat.Failure? ==> r.error == flat.error)
  {
    if |lines| > 0 {
      var init := lines[..|lines| - 1];
      var head := found[..|found| - 1];
      var more := found[|found| - 1];
      CollectIsFlatFold(init, glob, head);
      AddFirstAppend(map[], Flatten(head), more, |more|);
    }
  }

  lemma GetToolsCwlIsFlatFold(lines: seq<RegistryLine>, files: ToolFiles, validate: bool)
    ensures var flat := AddEntries(map[], Entries(lines, files, validate));
      var r := GetToolsCwl(lines, files, validate);
      && (r.Success? <==> flat.Success?)
      && (flat.Success? ==> r.value == ToolsBuilt(flat.value, ZeroMatchWarnings(lines, files.glob)))
      && (flat.Failure? ==> r.error == flat.error)
  {
    CollectIsFlatFold(lines, files.glob, Discover(lines, files, validate));
  }

  /** The loop fails exactly when some non-skipped entry is rejected, and it reports
      the first such entry. */
  lemma {:induction false} AddFirstFailsAtFirstRejected(cat: map<StepId, Tool>, es: seq<Entry>, n: nat)
    requires n <= |es|
    ensures AddFirst(cat, es, n).Failure?
        <==> exists i :: 0 <= i < n && Rejected(es[i])
    ensures AddFirst(cat, es, n).Failure? ==>
      exists i :: 0 <= i < n && Rejected(es[i])
        && es[i].loaded == Failure(AddFirst(cat, es, n).error)
        && forall j :: 0 <= j < i ==> !Rejected(es[j])
  {
    if n > 0 {
      AddFirstFailsAtFirstRejected(cat, es, n - 1);
      var prev := AddFirst(cat, es, n - 1);
      var r := AddFirst(cat, es, n);
      if prev.Success? {
        assert r == AddEntry(prev.value, es[n - 1]);
      }
    }
  }

  /** After a successful loop over the first `n` entries, the keys are the old keys
      plus those some non-skipped entry writes; a key written by some entry holds the
      tool of the last such entry; a key no entry writes keeps its old value. */
  lemma {:induction false} AddFirstLastWriteWins(cat: map<StepId, Tool>, es: seq<Entry>, n: nat, k: StepId)
    requires n <= |es|
    requires AddFirst(cat, es, n).Success?
    ensures var r := AddFirst(cat, es, n).value;
      var i := LastWriterBelow(es, k, n);
      && (k in r <==> k in cat || 0 <= i)
      && (0 <= i ==> es[i].loaded == Success(r[k]))
      && (i < 0 && k in cat ==> r[k] == cat[k])
  {
    if n > 0 {
      var prev := AddFirst(cat, es, n - 1);
      AddFirstLastWriteWins(cat, es, n - 1, k);
      var e := es[n - 1];
      if !e.deprecated {
        assert AddFirst(cat, es, n).value
            == prev.value[e.key := e.loaded.value];
      }
    }
  }

  /** Every flattened entry is an entry of one of the lines. */
  lemma {:induction false} FlattenOrigin(found: seq<seq<Entry>>, i: nat)
    requires i < |Flatten(found)|
    ensures exists l, m :: 0 <= l < |found| && 0 <= m < |found[l]| && Flatten(found)[i] == found[l][m]
  {
    var head := found[..|found| - 1];
    if i < |Flatten(head)| {
      FlattenOrigin(head, i);
      var l, m :| 0 <= l < |head| && 0 <= m < |head[l]| && Flatten(head)[i] == head[l][m];
      assert head[l] == found[l];
    } else {
      assert Flatten(found)[i] == found[|found| - 1][i - |Flatten(head)|];
    }
  }

  /** Where an entry comes from: a file globbed for one of the registry lines, with
      the key, skip flag and load result that file gives. */
  lemma EntryOrigin(lines: seq<RegistryLine>, files: ToolFiles, validate: bool, i: nat)
    requires i < |Entries(lines, files, validate)|
    ensures var e := Entries(lines, files, validate)[i];
      && e.key.stem == Stem(e.path)
      && e.deprecated == Deprecated(e.path)
      && e.loaded == LoadTool(files, validate, e.path)
      && exists l, m :: (0 <= l < |lines| && 0 <= m < |files.glob(lines[l].directory)|
           && e.key.pluginNs == lines[l].namespace && e.path == files.glob(lines[l].directory)[m])
  {
    var found := Discover(lines, files, validate);
    FlattenOrigin(found, i);
    var l, m :| 0 <= l < |found| && 0 <= m < |found[l]| && Flatten(found)[i] == found[l][m];
    assert found[l][m] == EntryFor(files, validate, lines[l].namespace, files.glob(lines[l].directory)[m]);
  }

  /** The build succeeds exactly when every non-skipped file loads as a mapping and,
      when validation is on, validates; otherwise it reports the first file that does
      not. A deprecated file is never opened. */
  lemma GetToolsCwlFailsAtFirstRejected(lines: seq<RegistryLine>, files: ToolFiles, validate: bool)
    ensures var es := Entries(lines, files, validate);
      var r := GetToolsCwl(lines, files, validate);
      && (r.Success? <==> forall i :: 0 <= i < |es| ==> !Rejected(es[i]))
      && (r.Failure? ==>
            exists i :: 0 <= i < |es| && LoadTool(files, validate, es[i].path) == Failure(r.error)
              && !es[i].deprecated
              && forall j :: 0 <= j < i ==> !Rejected(es[j]))
  {
    var es := Entries(lines, files, validate);
    GetToolsCwlIsFlatFold(lines, files, validate);
    AddFirstFailsAtFirstRejected(map[], es, |es|);
    if AddEntries(map[], es).Failure? {
      var i :| 0 <= i < |es| && Rejected(es[i])
        && es[i].loaded == Failure(AddFirst(map[], es, |es|).error)
        && forall j :: 0 <= j < i ==> !Rejected(es[j]);
      EntryOrigin(lines, files, validate, i);
    }
  }

  /** What a successful build holds: one key per (stem, namespace) of a non-skipped
      file; under it, the tool of the last such file in registry-then-glob order,
      with `stdout`/`stderr` named after the stem; and one warning per directory
      whose glob found nothing. */
  lemma CatalogContents(lines: seq<RegistryLine>, files: ToolFiles, validate: bool, k: StepId)
    requires GetToolsCwl(lines, files, validate).Success?
    ensures var es := Entries(lines, files, validate);
      var built := GetToolsCwl(lines, files, validate).value;
      && built.warnings == ZeroMatchWarnings(lines, files.glob)
      && (k in built.tools <==> exists i :: 0 <= i < |es| && Writes(es[i], k))
      && (k in built.tools ==>
            exists i :: 0 <= i < |es| && Writes(es[i], k)
              && (forall j :: i < j < |es| ==> !Writes(es[j], k))
              && built.tools[k].runPath == files.absPath(es[i].path)
              && LoadTool(files, validate, es[i].path) == Success(built.tools[k]))
      && (k in built.tools ==>
            && Lookup(built.tools[k].cwl.members, "stdout") == Some(Str(k.stem + ".out"))
            && Lookup(built.tools[k].cwl.members, "stderr") == Some(Str(k.stem + ".err")))
  {
    var es := Entries(lines, files, validate);
    GetToolsCwlIsFlatFold(lines, files, validate);
    AddFirstLastWriteWins(map[], es, |es|, k);
    var i := LastWriterBelow(es, k, |es|);
    if 0 <= i {
      EntryOrigin(lines, files, validate, i);
    }
  }

  /** A key's namespace is that of a registry line whose directory holds a
      non-deprecated file with the key's stem; a namespace whose directories hold
      no such file gets no key. */
  lemma KeysComeFromRegistry(lines: seq<RegistryLine>, files: ToolFiles, validate: bool, k: StepId)
    requires GetToolsCwl(lines, files, validate).Success?
    requires k in GetToolsCwl(lines, files, validate).value.tools
    ensures exists l, m :: (0 <= l < |lines| && 0 <= m < |files.glob(lines[l].directory)|
      && lines[l].namespace == k.pluginNs
      && !Deprecated(files.glob(lines[l].directory)[m])
      && Stem(files.glob(lines[l].directory)[m]) == k.stem)
  {
    var es := Entries(lines, files, validate);
    CatalogContents(lines, files, validate, k);
    var i :| 0 <= i < |es| && Writes(es[i], k);
    EntryOrigin(lines, files, validate, i);
    var e := es[i];
    var l, m :| 0 <= l < |lines| && 0 <= m < |files.glob(lines[l].directory)|
      && e.key.pluginNs == lines[l].namespace && e.path == files.glob(lines[l].directory)[m];
  }
}

=== FILE: workflow_catalog.dfy ===
/** `get_yml_paths`: the catalog of YAML workflow files, namespace -> stem -> absolute
    path. The recursive glob for `.yml` files and `os.path.abspath` are parameters. */
module WorkflowCatalog {
  import opened Results
  import opened Strings
  import opened Registry
  import opened LengthSort

  /** Paths containing this marker are generated inputs files and are skipped. */
  const InputsMarker: string := "_inputs"

  /** What the builder reads the outside world through. */
  datatype YmlFiles = YmlFiles(
    glob: string -> seq<string>,   // the recursive `**/*.yml` glob of a directory, in glob order
    absPath: string -> string)     // `os.path.abspath`

  /** A finished build: the catalog and the zero-match warnings. */
  datatype YmlBuilt = YmlBuilt(paths: map<string, map<string, string>>, warnings: seq<string>)

  predicate Excluded(path: string) {
    Contains(path, InputsMarker)
  }

  /** A path of the inner loop that writes stem `s`. */
  predicate Provides(path: string, s: string) {
    !Excluded(path) && Stem(path) == s
  }

  /** A path as the inner loop sees it: its stem and whether the filter skips it. */
  datatype Candidate = Candidate(path: string, stem: string, excluded: bool)

  function CandidateFor(path: string): Candidate {
    Candidate(path, Stem(path), Excluded(path))
  }

  function Candidates(ps: seq<string>): (cs: seq<Candidate>)
    ensures |cs| == |ps|
    ensures forall i :: 0 <= i < |ps| ==> cs[i] == CandidateFor(ps[i])
  {
    seq(|ps|, i requires 0 <= i < |ps| => CandidateFor(ps[i]))
  }

  /** The inner loop over the first `n` candidates: later candidates overwrite. */
  function StemMapFirst(cs: seq<Candidate>, absPath: string -> string, n: nat): map<string, string>
    requires n <= |cs|
  {
    if n == 0 then map[]
    else
      var m := StemMapFirst(cs, absPath, n - 1);
      var c := cs[n - 1];
      if c.excluded then m else m[c.stem := absPath(c.path)]
  }

  /** The index of the last of the first `n` candidates that writes stem `s`, or -1. */
  function LastProviderBelow(cs: seq<Candidate>, s: string, n: nat): (i: int)
    requires n <= |cs|
    ensures -1 <= i < n
    ensures 0 <= i ==> !cs[i].excluded && cs[i].stem == s
    ensures forall j :: i < j < n ==> cs[j].excluded || cs[j].stem != s
  {
    if n == 0 then -1
    else if !cs[n - 1].excluded && cs[n - 1].stem == s then n - 1
    else LastProviderBelow(cs, s, n - 1)
  }

  /** The map after the inner loop holds stem `s` exactly when some candidate writes
      it, and then the absolute path of the last one. */
  lemma {:induction false} StemMapLastWins(cs: seq<Candidate>, absPath: string -> string, n: nat, s: string)
    requires n <= |cs|
    ensures var m := StemMapFirst(cs, absPath, n);
      var i := LastProviderBelow(cs, s, n);
      && (s in m <==> 0 <= i)
      && (0 <= i ==> m[s] == absPath(cs[i].path))
  {
    if n > 0 {
      StemMapLastWins(cs, absPath, n - 1, s);
    }
  }

  /** One registry line's map: the glob result sorted longest first, `_inputs`
      paths dropped, then stem -> absolute path with later entries overwriting. */
  function DirPaths(ps: seq<string>, absPath: string -> string): map<string, string> {
    var sorted := SortByLengthDesc(ps);
    assert |sorted| == |multiset(sorted)| == |multiset(ps)| == |ps|;
    StemMapFirst(Candidates(sorted), absPath, |sorted|)
  }

  /** The last element of `xs` of length `n` that satisfies `p`. */
  function LastOfLength(xs: seq<string>, p: string -> bool, n: nat): Option<string> {
    if |xs| == 0 then None
    else match LastOfLength(xs[1..], p, n)
      case Some(y) => Some(y)
      case None => if p(xs[0]) && |xs[0]| == n then Some(xs[0]) else None
  }

  /** `LastOfLength` is `Some(xs[k])` for the last index `k` that qualifies. */
  lemma {:induction false} LastOfLengthAt(xs: seq<string>, p: string -> bool, n: nat, k: int)
    requires -1 <= k < |xs|
    requires 0 <= k ==> p(xs[k]) && |xs[k]| == n
    requires forall j :: k < j < |xs| ==> !(p(xs[j]) && |xs[j]| == n)
    ensures LastOfLength(xs, p, n) == if k < 0 then None else Some(xs[k])
  {
    if |xs| > 0 {
      LastOfLengthAt(xs[1..], p, n, if k <= 0 then -1 else k - 1);
    }
  }

  /** When `LastOfLength` finds an element, it is at a qualifying index with no
      qualifying index after it. */
  lemma {:induction false} LastOfLengthFound(xs: seq<string>, p: string -> bool, n: nat)
    requires LastOfLength(xs, p, n).Some?
    ensures exists k :: (0 <= k < |xs| && xs[k] == LastOfLength(xs, p, n).value
      && p(xs[k]) && |xs[k]| == n
      && forall j :: k < j < |xs| ==> !(p(xs[j]) && |xs[j]| == n))
  {
    var rest := LastOfLength(xs[1..], p, n);
    if rest.Some? {
      LastOfLengthFound(xs[1..], p, n);
      var k :| 0 <= k < |xs[1..]| && xs[1..][k] == rest.value && p(xs[1..][k]) && |xs[1..][k]| == n
        && forall j :: k < j < |xs[1..]| ==> !(p(xs[1..][j]) && |xs[1..][j]| == n);
      assert xs[k + 1] == rest.value;
      forall j | k + 1 < j < |xs|
        ensures !(p(xs[j]) && |xs[j]| == n)
      {
        assert xs[j] == xs[1..][j - 1];
      }
    } else {
      forall j | 0 < j < |xs|
        ensures !(p(xs[j]) && |xs[j]| == n)
      {
        assert xs[j] == xs[1..][j - 1];
        if p(xs[j]) && |xs[j]| == n {
          LastOfLengthLater(xs[1..], p, n, j - 1);
        }
      }
    }
  }

  /** A qualifying element makes `LastOfLength` find something. */
  lemma {:induction false} LastOfLengthLater(xs: seq<string>, p: string -> bool, n: nat, k: nat)
    requires k < |xs| && p(xs[k]) && |xs[k]| == n
    ensures LastOfLength(xs, p, n).Some?
  {
    if k > 0 {
      LastOfLengthLater(xs[1..], p, n, k - 1);
    }
  }

  /** Looking for the last qualifying element only needs the elements of length `n`. */
  lemma {:induction false} LastOfLengthFilters(xs: seq<string>, p: string -> bool, n: nat)
    ensures LastOfLength(xs, p, n) == LastOfLength(OfLength(xs, n), p, n)
  {
    if |xs| > 0 {
      LastOfLengthFilters(xs[1..], p, n);
      var head: seq<string> := if |xs[0]| == n then [xs[0]] else [];
      var f := OfLength(xs, n);
      assert f == head + OfLength(xs[1..], n);
      if |xs[0]| == n {
        assert |f| > 0 && f[0] == xs[0];
        assert f[1..] == OfLength(xs[1..], n);
        assert LastOfLength(f, p, n) == match LastOfLength(f[1..], p, n)
          case Some(y) => Some(y)
          case None => if p(f[0]) && |f[0]| == n then Some(f[0]) else None;
      } else {
        assert f == OfLength(xs[1..], n);
      }
    }
  }

  /** In a longest-first arrangement of `ps`, the last element satisfying `p` is no
      longer than any element of `ps` satisfying `p`; there is none exactly when no
      element of `ps` satisfies `p`. */
  lemma SortedLastIsShortest(ps: seq<string>, sorted: seq<string>, p: string -> bool, i: int)
    requires multiset(sorted) == multiset(ps) && SortedByLengthDesc(sorted)
    requires -1 <= i < |sorted|
    requires 0 <= i ==> p(sorted[i])
    requires forall j :: i < j < |sorted| ==> !p(sorted[j])
    ensures forall j :: 0 <= j < |ps| && p(ps[j]) ==> 0 <= i && |sorted[i]| <= |ps[j]|
    ensures 0 <= i ==> sorted[i] in ps
  {
    forall j | 0 <= j < |ps| && p(ps[j])
      ensures 0 <= i && |sorted[i]| <= |ps[j]|
    {
      assert ps[j] in multiset(ps);
      assert ps[j] in sorted;
      var t :| 0 <= t < |sorted| && sorted[t] == ps[j];
      assert t <= i;
    }
    if 0 <= i {
      assert sorted[i] in multiset(sorted);
    }
  }

  /** Stability: the last element of the sort satisfying `p` is, in `ps`, the last
      element of its length satisfying `p`. */
  lemma SortedLastIsLatest(ps: seq<string>, p: string -> bool, i: nat)
    requires i < |SortByLengthDesc(ps)|
    requires p(SortByLengthDesc(ps)[i])
    requires forall j :: i < j < |SortByLengthDesc(ps)| ==> !p(SortByLengthDesc(ps)[j])
    ensures exists w :: (0 <= w < |ps| && ps[w] == SortByLengthDesc(ps)[i] && p(ps[w])
      && forall j :: w < j < |ps| ==> !(p(ps[j]) && |ps[j]| == |ps[w]|))
  {
    var sorted := SortByLengthDesc(ps);
    var x := sorted[i];
    var len := |x|;
    LastOfLengthAt(sorted, p, len, i);
    LastOfLengthFilters(sorted, p, len);
    LastOfLengthFilters(ps, p, len);
    SortIsStable(ps, len);
    LastOfLengthFound(ps, p, len);
  }

  /** The two halves together: the sort's last element satisfying `p` is a shortest
      one in `ps`, and the last of the shortest. */
  lemma SortedLastIsShortestLatest(ps: seq<string>, p: string -> bool, i: nat) returns (w: nat)
    requires i < |SortByLengthDesc(ps)|
    requires p(SortByLengthDesc(ps)[i])
    requires forall j :: i < j < |SortByLengthDesc(ps)| ==> !p(SortByLengthDesc(ps)[j])
    ensures w < |ps| && ps[w] == SortByLengthDesc(ps)[i] && p(ps[w])
    ensures forall j :: 0 <= j < |ps| && p(ps[j]) ==> |ps[w]| <= |ps[j]|
    ensures forall j :: w < j < |ps| && p(ps[j]) ==> |ps[w]| < |ps[j]|
  {
    var sorted := SortByLengthDesc(ps);
    SortedLastIsShortest(ps, sorted, p, i);
    SortedLastIsLatest(ps, p, i);
    w :| 0 <= w < |ps| && ps[w] == sorted[i] && p(ps[w])
      && forall j :: w < j < |ps| ==> !(p(ps[j]) && |ps[j]| == |ps[w]|);
  }

  /** The sort's candidates line up with its paths. */
  lemma DirPathsSetup(ps: seq<string>, absPath: string -> string, s: string)
    ensures var sorted := SortByLengthDesc(ps);
      var cs := Candidates(sorted);
      var i := LastProviderBelow(cs, s, |cs|);
      && |cs| == |sorted|
      && DirPaths(ps, absPath) == StemMapFirst(cs, absPath, |cs|)
      && (0 <= i ==> Provides(sorted[i], s))
      && (forall j :: i < j < |sorted| ==> !Provides(sorted[j], s))
  {
    var sorted := SortByLengthDesc(ps);
    var cs := Candidates(sorted);
    assert |sorted| == |multiset(sorted)| == |multiset(ps)| == |ps|;
    forall j | 0 <= j < |sorted|
      ensures Provides(sorted[j], s) <==> !cs[j].excluded && cs[j].stem == s
    {
      assert cs[j] == CandidateFor(sorted[j]);
    }
  }

  /** Within one directory, a stem is a key exactly when some non-`_inputs` path has it. */
  lemma DirPathsKeys(ps: seq<string>, absPath: string -> string, s: string)
    ensures s in DirPaths(ps, absPath) <==> exists i :: 0 <= i < |ps| && Provides(ps[i], s)
  {
    var sorted := SortByLengthDesc(ps);
    var cs := Candidates(sorted);
    var i := LastProviderBelow(cs, s, |cs|);
    DirPathsSetup(ps, absPath, s);
    StemMapLastWins(cs, absPath, |cs|, s);
    var p := (y: string) => Provides(y, s);
    SortedLastIsShortest(ps, sorted, p, i);
    if 0 <= i {
      var w :| 0 <= w < |ps| && ps[w] == sorted[i];
      assert p(ps[w]);
    }
  }

  /** Within one directory, the value of a stem is the absolute path of a shortest
      non-`_inputs` path with that stem, and of the last one in glob order among the
      shortest (the sort is stable and longest first, and later entries overwrite). */
  lemma DirPathsShortestLatest(ps: seq<string>, absPath: string -> string, s: string) returns (w: nat)
    requires exists i :: 0 <= i < |ps| && Provides(ps[i], s)
    ensures s in DirPaths(ps, absPath)
    ensures w < |ps| && Provides(ps[w], s) && DirPaths(ps, absPath)[s] == absPath(ps[w])
    ensures forall i :: 0 <= i < |ps| && Provides(ps[i], s) ==> |ps[w]| <= |ps[i]|
    ensures forall i :: w < i < |ps| && Provides(ps[i], s) ==> |ps[w]| < |ps[i]|
  {
    var sorted := SortByLengthDesc(ps);
    var cs := Candidates(sorted);
    var i := LastProviderBelow(cs, s, |cs|);
    DirPathsKeys(ps, absPath, s);
    DirPathsSetup(ps, absPath, s);
    StemMapLastWins(cs, absPath, |cs|, s);
    assert s in StemMapFirst(cs, absPath, |cs|);
    assert 0 <= i;
    var p := (y: string) => Provides(y, s);
    w := SortedLastIsShortestLatest(ps, p, i);
    assert Provides(ps[w], s);
    assert cs[i].path == ps[w];
    assert DirPaths(ps, absPath)[s] == absPath(ps[w]);
    forall j | 0 <= j < |ps| && Provides(ps[j], s)
      ensures |ps[w]| <= |ps[j]| && (w < j ==> |ps[w]| < |ps[j]|)
    {
      assert p(ps[j]);
    }
  }

  /** Every registry line's map, in registry order. */
  function Scan(lines: seq<RegistryLine>, files: YmlFiles): (found: seq<map<string, string>>)
    ensures |found| == |lines|
    ensures forall l :: 0 <= l < |lines| ==> found[l] == DirPaths(files.glob(lines[l].directory), files.absPath)
  {
    seq(|lines|, l requires 0 <= l < |lines| => DirPaths(files.glob(lines[l].directory), files.absPath))
  }

  /** The outer loop over the first `n` lines: the namespace's existing map, or the
      empty one, merged with the line's map, the line's entries overriding. Every
      namespace seen becomes a key, even when its map is empty. */
  function MergeFirst(lines: seq<RegistryLine>, found: seq<map<string, string>>, n: nat)
    : (cat: map<string, map<string, string>>)
    requires |found| == |lines| && n <= |lines|
    ensures forall ns :: ns in cat <==> exists l :: 0 <= l < n && lines[l].namespace == ns
  {
    if n == 0 then map[]
    else
      var cat := MergeFirst(lines, found, n - 1);
      var ns := lines[n - 1].namespace;
      var before := if ns in cat then cat[ns] else map[];
      cat[ns := before + found[n - 1]]
  }

  /** The index of the last of the first `n` lines of namespace `ns` whose map holds
      stem `s`, or -1. */
  function LastLineBelow(lines: seq<RegistryLine>, found: seq<map<string, string>>,
                         ns: string, s: string, n: nat): (l: int)
    requires |found| == |lines| && n <= |lines|
    ensures -1 <= l < n
    ensures 0 <= l ==> lines[l].namespace == ns && s in found[l]
    ensures forall j :: l < j < n ==> lines[j].namespace != ns || s !in found[j]
  {
    if n == 0 then -1
    else if lines[n - 1].namespace == ns && s in found[n - 1] then n - 1
    else LastLineBelow(lines, found, ns, s, n - 1)
  }

  /** Across registry lines of one namespace the later line wins on a stem, whatever
      the lengths of the paths: a stem is in the namespace's map exactly when some
      line of that namespace has it, and holds the value of the last such line. */
  lemma {:induction false} MergeLaterLineWins(lines: seq<RegistryLine>, found: seq<map<string, string>>,
                                              n: nat, ns: string, s: string)
    requires |found| == |lines| && n <= |lines|
    requires ns in MergeFirst(lines, found, n)
    ensures var m := MergeFirst(lines, found, n)[ns];
      var l := LastLineBelow(lines, found, ns, s, n);
      && (s in m <==> 0 <= l)
      && (0 <= l ==> m[s] == found[l][s])
  {
    if ns in MergeFirst(lines, found, n - 1) {
      MergeLaterLineWins(lines, found, n - 1, ns, s);
    }
  }

  /** `get_yml_paths(homedir)` over the registry lines of `yml_dirs.txt`. */
  function GetYmlPaths(lines: seq<RegistryLine>, files: YmlFiles): YmlBuilt {
    YmlBuilt(MergeFirst(lines, Scan(lines, files), |lines|), ZeroMatchWarnings(lines, files.glob))
  }

  /** A build's keys and warnings: one key per namespace of the registry, even one
      whose directories matched nothing, and one warning per empty glob result. */
  lemma YmlCatalogKeys(lines: seq<RegistryLine>, files: YmlFiles, ns: string)
    ensures var built := GetYmlPaths(lines, files);
      && built.warnings == ZeroMatchWarnings(lines, files.glob)
      && (ns in built.paths <==> exists l :: 0 <= l < |lines| && lines[l].namespace == ns)
  {
  }

  /** Under a namespace, a stem comes from the last line `l` of that namespace whose
      directory provides it, with the path `w` of that directory that is a shortest
      (then latest) non-`_inputs` path with that stem. */
  lemma YmlCatalogValue(lines: seq<RegistryLine>, files: YmlFiles, ns: string, s: string)
    returns (l: int, w: nat)
    requires exists l :: 0 <= l < |lines| && lines[l].namespace == ns
    ensures ns in GetYmlPaths(lines, files).paths
    ensures l == LastLineBelow(lines, Scan(lines, files), ns, s, |lines|)
    ensures s in GetYmlPaths(lines, files).paths[ns] <==> 0 <= l
    ensures 0 <= l ==> var ps := files.glob(lines[l].directory);
      && w < |ps| && Provides(ps[w], s)
      && GetYmlPaths(lines, files).paths[ns][s] == files.absPath(ps[w])
      && forall i :: 0 <= i < |ps| && Provides(ps[i], s) ==> |ps[w]| <= |ps[i]|
  {
    assert ns in GetYmlPaths(lines, files).paths by {
      YmlCatalogKeys(lines, files, ns);
    }
    var found := Scan(lines, files);
    MergeLaterLineWins(lines, found, |lines|, ns, s);
    l := LastLineBelow(lines, found, ns, s, |lines|);
    w := 0;
    if 0 <= l {
      var ps := files.glob(lines[l].directory);
      assert found[l] == DirPaths(ps, files.absPath);
      assert exists i :: 0 <= i < |ps| && Provides(ps[i], s) by {
        DirPathsKeys(ps, files.absPath, s);
      }
      w := DirPathsShortestLatest(ps, files.absPath, s);
    }
  }

  /** Two lines of one namespace that both provide stem `x`: the later line's longer
      path replaces the earlier line's shorter one. */
  lemma LaterLineBeatsShorterPath()
    ensures var lines := [RegistryLine("ns", "a"), RegistryLine("ns", "b")];
      var found := [map["x" := "/a/x.yml"], map["x" := "/b/deeper/x.yml"]];
      MergeFirst(lines, found, 2)["ns"]["x"] == "/b/deeper/x.yml"
  {
    var lines := [RegistryLine("ns", "a"), RegistryLine("ns", "b")];
    var found := [map["x" := "/a/x.yml"], map["x" := "/b/deeper/x.yml"]];
    assert lines[1].namespace == "ns" && found[1]["x"] == "/b/deeper/x.yml";
  }
}
